=== FILE: README.md ===
# PaperCanvas interaction model

A Dafny model of `PaperCanvas`, the Phoenix LiveView hook of pumpkinchat that
turns mouse and keyboard events on a paper.js canvas into edits of a vector
drawing. The hook is a small sequential state machine. It keeps a drawing
mode (`'select'` or `'pen'`), the pointer state (pressed flag, origin, last
and current point), the selection type, the shift flag and the path being
drawn. paper.js holds the drawing itself: paths of segments, each with its
own selection flag.

The model makes that state explicit. A `PaperCanvas.Session` holds the hook's
fields together with the drawing. Every handler is a pure function from
session to session, and `PaperCanvas.Step` routes one `Event` to its handler.
The modules follow the hook's parts:

- `Geometry`: integer points, `createPoint`, `getDelta`, and an exact
  distance comparison.
- `Document`: segments, paths and the drawing. It also holds the selection
  model assumed of paper.js, `deselectAll`, and lookup by path identity.
- `PathBuilder`: pen mode. It covers starting a path, the sampling and
  early-closure rule, and closing or discarding a path.
- `Selection`: select mode. It covers click-to-select by hit kind, shift
  multi-select, move by delta, and delete by selection type.
- `PaperCanvas`: the session, the events and the handlers.
- `CanvasProperties`: lemmas that relate handlers to each other, or a handler
  to the invariant of the session.
- `Seqs` and `Wrappers`: order-preserving deletion, distinctness, `Option`.

Queries to paper.js become inputs to the events:

- `hitTest` becomes the `Hit` of a press. It is one of no hit, a fill hit, a
  segment hit, or a stroke hit on curve `k`.
- The value of `getDistance(point, path.getNearestPoint(point))` (line 295)
  becomes the `nearestDistance` of a move. It is any real the library
  reports, not necessarily a distance to the path. On a path of one segment
  paper.js has no curve to search, `getNearestPoint` gives null, and
  `Point.getDistance` reads null as the origin `(0, 0)`. So the first move
  after a pen press is measured from the canvas origin, and its sample is
  nearly always appended.
- The canvas bounding-box origin comes with every pointer event.

The distance to the first segment is computed exactly: `d < r` is the same
as `d² < r²` for non-negative `d` and `r`. Coordinates are integers, so
`add` and `subtract` are exact.

The model assumes these things of paper.js:

- `getSelectedItems` returns the paths whose own flag is set or that have a
  selected segment.
- `path.selected = false` clears the path flag and every segment flag.
  `fullySelected = true` sets them all.
- Segments made by `add` or `insert` start unselected.
- Setting a segment's flag also sets the flag of its path. Removing that
  segment later leaves the path flag set, so the path stays a selected
  item until it is deselected.
- Setting `item.position` to `position + delta` translates every segment of
  the item by `delta`.
- A path object's identity is the `id` field of `Document.Path`.

## Model

| member | source | states |
|---|---|---|
| Geometry.CreatePoint | assets/js/PaperCanvas.js:83-89 | the canvas-local point plus the bounding-box origin gives back the client point |
| Geometry.GetDelta | assets/js/PaperCanvas.js:99-104 | the delta carries the second point onto the first |
| Geometry.SquaredDistance | assets/js/PaperCanvas.js:108-110 | the squared distance is zero exactly when the two points coincide |
| Geometry.CloserThanSelf | assets/js/PaperCanvas.js:296-301 | a point is within the resolution of itself exactly when the resolution is positive, and no two points are within a zero resolution |
| Geometry.DeltasTelescope | assets/js/PaperCanvas.js:205-206 | consecutive pointer deltas add up to the delta across the whole drag |
| Document.DeselectPath | assets/js/PaperCanvas.js:159-161 | the deselected path has no path or segment flag set and keeps its identity and points |
| Document.DeselectAll | assets/js/PaperCanvas.js:93-95 | nothing is selected afterwards; paths keep identity, order and points; unselected paths are unchanged |
| Document.DeselectAllIdempotent | assets/js/PaperCanvas.js:93-95 | deselecting twice is the same as deselecting once |
| Document.IndexOf | assets/js/PaperCanvas.js:159-160 | finds a path with the current path's identity, or reports that the identity is not in the drawing |
| Document.IndexOfDistinct | assets/js/PaperCanvas.js:159 | when paths are distinct objects, looking up a path's identity finds that path's own index |
| Document.RemoveAt | assets/js/PaperCanvas.js:336 | removing one path keeps all others in their order |
| PathBuilder.DrawDecision | assets/js/PaperCanvas.js:293-304 | append exactly when the nearest distance exceeds the resolution; finish exactly when it does not, the point is within the resolution of the first segment, and there are more than `minimumPointsPerPath` segments |
| PathBuilder.EarlyClosureCases | assets/js/PaperCanvas.js:299-303 | a sample exactly on the first point finishes a long enough path exactly when it is not far from the path and the resolution is positive; with a zero resolution no sample ever finishes a path early |
| PathBuilder.NewPath | assets/js/PaperCanvas.js:162-165 | the new path holds only the press point and is a selected item |
| PathBuilder.StartPath | assets/js/PaperCanvas.js:158-166 | the new path is appended last; the previous current path is deselected; every other path is unchanged |
| PathBuilder.AppendPoint | assets/js/PaperCanvas.js:300 | exactly one unselected segment is appended; earlier segments are unchanged |
| PathBuilder.FinishPath | assets/js/PaperCanvas.js:330-338 | above `minimumPointsPerPath` segments, one segment is added so that last equals first and the count rises by one; otherwise the path is removed and the others stay in order |
| Selection.FullySelect | assets/js/PaperCanvas.js:180-182 | the path and every one of its segments are selected; the outline is unchanged |
| Selection.SelectSegment | assets/js/PaperCanvas.js:183-184 | the hit segment's flag and its path's flag are set; every other flag and every point is unchanged |
| Selection.InsertSegment | assets/js/PaperCanvas.js:185-188 | one selected segment is inserted at the index and the path's flag is set; segments before keep their index, segments after shift by one |
| Selection.ClickBase | assets/js/PaperCanvas.js:172-175 | without shift nothing stays selected; with shift the drawing is untouched; outlines never change |
| Selection.ClickFill | assets/js/PaperCanvas.js:171-182 | a fill hit fully selects the hit path; other paths are deselected without shift and untouched with shift |
| Selection.ClickSegment | assets/js/PaperCanvas.js:171-184 | the hit path becomes a selected item; without shift the hit segment is its only selected segment and the other paths are deselected; with shift the segment is added to the earlier selection |
| Selection.ClickStroke | assets/js/PaperCanvas.js:185-190 | the last pointer point is inserted at `location + 1` and selected, the other points keep their order, and the hit path's flag is set; without shift it is the only selected segment; with shift, earlier selection stays |
| Selection.ClickDrawing | assets/js/PaperCanvas.js:171-191 | the recorded selection type is fill for a fill hit and segment for a segment or stroke hit; paths that were not hit keep their outline |
| Selection.MoveSelectedItems | assets/js/PaperCanvas.js:257-261 | every point of every selected item moves by the delta; unselected items are untouched; all flags are kept |
| Selection.MoveSelectedSegments | assets/js/PaperCanvas.js:280-288 | exactly the selected segments move by the delta; every other segment keeps its point; all flags are kept |
| Selection.MoveSelectedItemsZero | assets/js/PaperCanvas.js:257-261 | a fill move by the zero delta changes nothing |
| Selection.MoveSelectedSegmentsZero | assets/js/PaperCanvas.js:280-288 | a segment move by the zero delta changes nothing |
| Selection.MoveSelectedItemsCompose | assets/js/PaperCanvas.js:257-261 | two fill moves in a row equal one move by the summed delta |
| Selection.MoveSelectedSegmentsCompose | assets/js/PaperCanvas.js:280-288 | two segment moves in a row equal one move by the summed delta |
| Selection.MoveSelectedItemsUndo | assets/js/PaperCanvas.js:257-261 | moving back by the opposite delta restores the drawing |
| Selection.MoveSelectedSegmentsUndo | assets/js/PaperCanvas.js:280-288 | moving back by the opposite delta restores the drawing |
| Selection.DeleteSelectedItems | assets/js/PaperCanvas.js:251-253 | the result is an order-preserving deletion that leaves no selected item and keeps every unselected path |
| Selection.RemoveSelectedSegments | assets/js/PaperCanvas.js:267-271 | the loop only deletes: unselected segments all stay, in their original order |
| Selection.ForEachRemoveSelected | assets/js/PaperCanvas.js:267-271 | the index walk of `forEach` over the live segment array computes the same result as the recursive definition |
| Selection.RemoveSelectedSegmentsCompleteIff | assets/js/PaperCanvas.js:267-271 | all selected segments are removed exactly when no two selected segments are adjacent |
| Selection.AdjacentSelectedSegmentSurvives | assets/js/PaperCanvas.js:267-271 | a worked example of `SelectedRunKeepsEverySecond`: a path of exactly two selected segments keeps the second |
| Selection.SkipAfterRemoval | assets/js/PaperCanvas.js:267-271 | the segment right after a removed one is never visited, so it survives whatever its flag |
| Selection.SelectedRunKeepsEverySecond | assets/js/PaperCanvas.js:267-271 | a run of adjacent selected segments keeps exactly its second, fourth, ... segment; after a run of odd length the next segment is not visited and survives |
| Selection.AllSelectedKeepsEverySecond | assets/js/PaperCanvas.js:267-271 | a path whose segments are all selected keeps exactly every second segment |
| Selection.DeleteSelectedSegments | assets/js/PaperCanvas.js:265-276 | no path is added and the remaining paths keep their order |
| Selection.DeleteSelectedSegmentsKeeps | assets/js/PaperCanvas.js:265-276 | the paths left are exactly the unselected paths, unchanged, and the selected paths with their visited selected segments removed, when at least `minimumPointsPerPath` segments remain |
| PaperCanvas.Initial | assets/js/PaperCanvas.js:18-46 | the hook starts released, without shift, without a selection type or current path, and in a valid session; a supplied mode or resolution replaces the default `'select'` and `1` |
| PaperCanvas.CurrentPathIndex | assets/js/PaperCanvas.js:159 | the index found holds the current path; none is found when the path is null or no longer in the drawing |
| PaperCanvas.HandleDrawingStarted | assets/js/PaperCanvas.js:158-166 | the new path gets a fresh identity and becomes the current path |
| PaperCanvas.FinishDrawing | assets/js/PaperCanvas.js:330-338 | the press ends; a path with more than `minimumPointsPerPath` segments gets a final segment at its first point; a shorter path is removed and the others keep their order |
| PaperCanvas.HandleDrawing | assets/js/PaperCanvas.js:293-304 | only the drawing and the pressed flag can change, and the flag can only be cleared; a null or detached current path changes nothing |
| PaperCanvas.HandleDrawingClicked | assets/js/PaperCanvas.js:171-191 | only the drawing and the selection type change; path identities are kept; a stroke hit is recorded as a segment selection |
| PaperCanvas.HandleCanvasClicked | assets/js/PaperCanvas.js:196-198 | only the drawing changes: nothing is selected afterwards, every path keeps its identity, position and outline, unselected paths are untouched, and the selection type is left as it was |
| PaperCanvas.HandleSelectionMoved | assets/js/PaperCanvas.js:236-247 | only the drawing changes, and all selection flags are kept; with no selection type nothing changes |
| PaperCanvas.HandleSelectionDeleted | assets/js/PaperCanvas.js:222-231 | only the drawing changes, and no path identity is added: the identities left are earlier ones, in order; with no selection type nothing changes |
| PaperCanvas.HandleMouseDown | assets/js/PaperCanvas.js:131-153 | origin, last and current point all become the press point, and the mouse is pressed |
| PaperCanvas.HandleMouseMove | assets/js/PaperCanvas.js:203-217 | when released, nothing changes; when pressed, last becomes the old current point and current becomes the new point; no path identity is added, and the identities left are earlier ones, in order |
| PaperCanvas.HandleMouseUp | assets/js/PaperCanvas.js:309-317 | the press ends and current and last become the release point; outside pen mode the drawing is untouched; no path identity is added, and the identities left are earlier ones, in order |
| PaperCanvas.HandleKeyDown | assets/js/PaperCanvas.js:114-120 | the shift flag is recorded from the event; keys other than Delete and Backspace change nothing else |
| PaperCanvas.HandleKeyUp | assets/js/PaperCanvas.js:124-126 | only the shift flag changes |
| PaperCanvas.Step | assets/js/PaperCanvas.js:57-64 | no event changes the drawing mode or the resolution; an event other than a press hands out no path identity, and the identities left are earlier ones, in order |
| PaperCanvas.Run | assets/js/PaperCanvas.js:57-64 | a run of events without presses adds no path identity: the identities afterwards are earlier ones, in order, so there are never more paths (the paths themselves can be moved, extended or lose segments); mode, resolution and identity counter are kept |
| CanvasProperties.StepPreservesValid | assets/js/PaperCanvas.js:114-338 | every event keeps path identities distinct and below the identity counter |
| CanvasProperties.PenPressStartsPath | assets/js/PaperCanvas.js:146-166 | a pen press appends a path holding only the press point, fully selected, and makes it the current path; the previous path is deselected; the rest is untouched |
| CanvasProperties.PenMoveAppendsFinishesOrIgnores | assets/js/PaperCanvas.js:293-304 | a pressed pen move does one of three things: appends the point, closes the path and ends the press, or changes nothing, as the distance rules decide |
| CanvasProperties.EarlyClosureThenReleaseClosesTwice | assets/js/PaperCanvas.js:299-317 | after an early loop closure, the release appends a second closing segment |
| CanvasProperties.FarPenMovesAppendInOrder | assets/js/PaperCanvas.js:293-300 | pen samples farther than the resolution are all appended to the current path, in order |
| CanvasProperties.PenStrokeIsClosedOrDiscarded | assets/js/PaperCanvas.js:131-338 | press, far samples and release give a path of the press point and the samples plus the press point again, or no path at all when the path is too short |
| CanvasProperties.SegmentDragTranslatesBySpan | assets/js/PaperCanvas.js:203-288 | any number of segment-drag moves translate exactly the selected segments by the final point minus the starting point |
| CanvasProperties.FillDragTranslatesBySpan | assets/js/PaperCanvas.js:203-261 | any number of fill-drag moves translate exactly the selected items by the final point minus the starting point |
| CanvasProperties.PlainClickSelectsOnlyHitPath | assets/js/PaperCanvas.js:146-198 | a click without shift leaves exactly the hit path selected; on empty canvas it leaves nothing selected and the selection type unchanged |
| CanvasProperties.ShiftClickKeepsSelection | assets/js/PaperCanvas.js:171-191 | a click with shift keeps every selected item selected and adds the hit path |
| CanvasProperties.StrokeClickInsertsPressPoint | assets/js/PaperCanvas.js:141-189 | a stroke click inserts the press point itself, selected, after the hit curve's first segment, and records a segment selection |
| CanvasProperties.DeleteKeyIgnoresMode | assets/js/PaperCanvas.js:114-120 | a key press has the same effect in every drawing mode |
| CanvasProperties.DeleteKeyBySelectionType | assets/js/PaperCanvas.js:222-276 | under a fill selection Delete removes every selected item and keeps every other path, in order, so nothing is selected afterwards; under a segment selection every path it changes keeps at least `minimumPointsPerPath` segments and every unselected path stays; with no selection type it does nothing |

## Behaviour notes

The model follows the code as written. These behaviours of the hook are easy
to misread:

- `handleSegmentSelectionDeleted` removes segments inside `forEach` over the
  live segment array. The segment right after a removed one is never visited,
  so it survives (`Selection.SkipAfterRemoval`). In a run of adjacent selected
  segments every second one survives
  (`Selection.SelectedRunKeepsEverySecond`).
  `Selection.RemoveSelectedSegmentsCompleteIff` proves that all selected
  segments are removed exactly when no two of them are adjacent. So the
  segment count drops by the number of selected segments only in that case.
- `handleCanvasClicked` deselects everything but does not reset
  `selectionType`. A drag or Delete that directly follows therefore still
  acts by the old type, on nothing.
- After an early loop closure during a pen move, the release calls
  `finishDrawing` again, which appends a second closing segment
  (`CanvasProperties.EarlyClosureThenReleaseClosesTwice`).
- `finishDrawing` and `handleDrawing` use `this.path` without a guard. When
  it is null, the handler throws. The throw leaves the fields set before it
  (the pointer points, and on release `mousePressed = false`) and changes nothing else.
  The model gives exactly that result. `PaperCanvas.FinishDrawing` itself
  requires a current path, as its callers in the source assume.
- The segment-deletion floor is `segments.length < minimumPointsPerPath`.
  The closing rule is `segments.length > minimumPointsPerPath`. So a path of
  exactly 3 segments survives a deletion, but is removed when a stroke of
  that length finishes.
- A stroke click selects the inserted segment. With shift held, the earlier
  selection stays selected too (`Selection.ClickStroke`).
- A segment or stroke click sets the hit path's own flag, and segment
  deletion does not clear it. A path that survives a segment deletion is
  therefore still a selected item: a later fill move moves it, and a later
  fill deletion removes it.

## Left out

- Lifecycle and I/O: `mounted`, `updated`, `bindEvents`, `handlePersist`
  with `pushEvent`, `importJSON` and `exportJSON`, and the DOM `dataset`
  reads. They are host glue. `PaperCanvas.Initial` takes the imported
  drawing, and the mode and resolution the element may supply, as
  parameters. The drawing mode and the resolution are session
  fields that no event changes.
- `drawResolution` is a natural number. The source reads it from a DOM
  attribute as a string and relies on JavaScript coercion in the comparisons.
- paper.js geometry is floating point, so it is not modelled. That covers
  `hitTest` with its tolerance of 5, `getNearestPoint`, Euclidean
  `getDistance`, and `item.position` as a bounding-box centre. Their results
  arrive as event inputs (`Hit`, `nearestDistance`), or the exact squared
  integer distance is used instead.
- Styling in `createPath` (colours, `strokeCap`, `strokeWidth`) is not part of
  the model.
- PaperCanvas.HandleDrawing: when the current path is no longer in the
  drawing, paper.js keeps working on the detached object. An early closure
  on it still ends the press. The model leaves the session unchanged in
  that case. It arises when Delete or Backspace removes the current path
  during a pen drag: the path is a selected item from its press on, so a
  fill deletion removes it.
- The multi-layer variant of the canvas is not part of this model. That
  covers named layers, the base-layer edit lock, the intersection constraint
  and pruning of empty layers.
- The pointer points are `null` until the first press. The model starts
  them at the origin; no handler reads them before a press sets them.
- Closed paths are not modelled. Every path is open, and a stroke hit on
  curve `k` needs segment `k + 1`. Paths this hook draws stay open, because
  it closes a loop by adding the first point again. A closed path in the
  imported content could report its last curve, and the hook would then
  insert at the end of the path; the model has no such hit.
- Hit kinds other than fill, segment and stroke are not modelled, because
  the hook asks `hitTest` for only those three.

=== FILE: canvas.dfy ===
/**
 * The canvas hook as one step function: the session holds what the hook
 * keeps in its own fields (drawing mode, pointer state, selection type,
 * shift flag, current path) together with the drawing paper.js holds for
 * it. Every event handler is a pure function from session to session.
 */
module PaperCanvas {
  import opened Wrappers
  import opened Seqs
  import opened Geometry
  import opened Document
  import opened PathBuilder
  import opened Selection

  /** `drawingMode`: `'select'`, `'pen'`, or any other string the host supplies. */
  datatype DrawingMode = SelectMode | PenMode | OtherMode

  /** Defaults of `drawingMode` and `drawResolution`, used when the element supplies none. */
  const DefaultDrawingMode: DrawingMode := SelectMode
  const DefaultDrawResolution: nat := 1

  datatype Session = Session(
    drawingMode: DrawingMode,
    drawResolution: nat,
    mousePressed: bool,
    mouseOriginPoint: Point,
    mouseLastPoint: Point,
    mouseCurrentPoint: Point,
    selectionType: SelectionType,
    shiftDown: bool,
    path: Option<nat>,      // identity of `this.path`; None while it is null
    nextPathId: nat,        // identity the next created path receives
    drawing: Drawing)

  /** Paths are distinct objects, and every identity handed out so far is below `nextPathId`. */
  predicate Valid(s: Session) {
    && Distinct(Ids(s.drawing))
    && forall id :: id in Ids(s.drawing) ==> id < s.nextPathId
  }

  /** An identity above every path of the drawing. */
  function FreshId(d: Drawing): (n: nat)
    ensures forall id :: id in Ids(d) ==> id < n
  {
    if |d| == 0 then 0
    else
      var m := FreshId(d[1..]);
      assert Ids(d) == [d[0].id] + Ids(d[1..]);
      if d[0].id >= m then d[0].id + 1 else m
  }

  /**
   * The hook's fields on mount: the defaults, except that a drawing mode or
   * resolution the element supplies replaces the default, and the drawing
   * is imported from the serialized content (empty when there is none).
   */
  function Initial(mode: Option<DrawingMode>, resolution: Option<nat>, content: Drawing): (s: Session)
    requires Distinct(Ids(content))
    ensures Valid(s) && s.drawing == content
    ensures !s.mousePressed && !s.shiftDown && s.selectionType == NoSelection && s.path == None
    ensures mode.None? ==> s.drawingMode == DefaultDrawingMode
    ensures mode.Some? ==> s.drawingMode == mode.value
    ensures resolution.None? ==> s.drawResolution == DefaultDrawResolution
    ensures resolution.Some? ==> s.drawResolution == resolution.value
  {
    var m := if mode.Some? then mode.value else DefaultDrawingMode;
    var r := if resolution.Some? then resolution.value else DefaultDrawResolution;
    Session(m, r, false, Zero, Zero, Zero, NoSelection, false, None, FreshId(content), content)
  }

  /** Index of the current path, when `this.path` is set and still in the drawing. */
  function CurrentPathIndex(s: Session): (r: Option<nat>)
    ensures r.Some? ==> s.path.Some? && r.value < |s.drawing| && s.drawing[r.value].id == s.path.value
    ensures r.None? ==> s.path.None? || s.path.value !in Ids(s.drawing)
  {
    if s.path.Some? then IndexOf(s.drawing, s.path.value) else None
  }

  /**
   * Events with the answers of the paper.js queries the handlers make:
   * `hit` is what `hitTest` reports at the press point, `nearestDistance`
   * what `getDistance(point, path.getNearestPoint(point))` returns.
   * `bounds` is the origin of the canvas bounding box at the time of the event.
   */
  datatype Event =
    | MouseDown(client: Point, bounds: Point, hit: Hit)
    | MouseMove(client: Point, bounds: Point, nearestDistance: real)
    | MouseUp(client: Point, bounds: Point)
    | KeyDown(key: string, shiftKey: bool)
    | KeyUp(shiftKey: bool)

  predicate EventFits(s: Session, e: Event) {
    e.MouseDown? ==> HitFits(s.drawing, e.hit)
  }

  // ------------------------------------------------------------------ pen mode

  /** `handleDrawingStarted`: the new path becomes the current path. */
  function HandleDrawingStarted(s: Session, point: Point): (r: Session)
    ensures r.path == Some(s.nextPathId) && r.nextPathId == s.nextPathId + 1
    ensures r.drawing == StartPath(s.drawing, s.path, s.nextPathId, point)
    ensures r.(path := s.path, nextPathId := s.nextPathId, drawing := s.drawing) == s
  {
    s.(path := Some(s.nextPathId), nextPathId := s.nextPathId + 1,
       drawing := StartPath(s.drawing, s.path, s.nextPathId, point))
  }

  /**
   * `finishDrawing`, which the source calls only with a current path: the
   * press ends; a path with more than `MinimumPointsPerPath` segments gets
   * one more segment at its first point, any other path is removed.
   */
  function FinishDrawing(s: Session): (r: Session)
    requires CurrentPathIndex(s).Some?
    ensures !r.mousePressed && r.(mousePressed := s.mousePressed, drawing := s.drawing) == s
    ensures IsSubseq(Ids(r.drawing), Ids(s.drawing))
    ensures var i := CurrentPathIndex(s).value; var before := s.drawing[i].segments;
      if |before| > MinimumPointsPerPath then
        && |r.drawing| == |s.drawing|
        && (forall k :: 0 <= k < |s.drawing| && k != i ==> r.drawing[k] == s.drawing[k])
        && r.drawing[i].id == s.drawing[i].id && r.drawing[i].selected == s.drawing[i].selected
        && r.drawing[i].segments == before + [Segment(before[0].point, false)]
      else
        && |r.drawing| == |s.drawing| - 1
        && (forall k :: 0 <= k < i ==> r.drawing[k] == s.drawing[k])
        && (forall k :: i <= k < |r.drawing| ==> r.drawing[k] == s.drawing[k + 1])
  {
    var i := CurrentPathIndex(s).value;
    var r := s.(mousePressed := false, drawing := FinishPath(s.drawing, i));
    assert |s.drawing[i].segments| > MinimumPointsPerPath ==>
      r.drawing[i].segments == r.drawing[i].segments[..|s.drawing[i].segments|] + [r.drawing[i].segments[|s.drawing[i].segments|]];
    r
  }

  /**
   * `handleDrawing`. A null current path, or one with no segments, makes
   * the source throw before it changes anything; a current path that is no
   * longer in the drawing is a detached object whose changes the drawing
   * never sees.
   */
  function HandleDrawing(s: Session, point: Point, nearestDistance: real): (r: Session)
    ensures r.(drawing := s.drawing, mousePressed := s.mousePressed) == s
    ensures CurrentPathIndex(s).None? ==> r == s
    ensures r.mousePressed != s.mousePressed ==> !r.mousePressed
    ensures IsSubseq(Ids(r.drawing), Ids(s.drawing))
  {
    SubseqRefl(Ids(s.drawing));
    match CurrentPathIndex(s)
    case None => s
    case Some(i) =>
      var p := s.drawing[i];
      if |p.segments| == 0 then s
      else
        match DrawDecision(|p.segments|, nearestDistance, point, p.segments[0].point, s.drawResolution)
        case AddPoint =>
          assert Ids(s.drawing[i := AppendPoint(p, point)]) == Ids(s.drawing);
          s.(drawing := s.drawing[i := AppendPoint(p, point)])
        case Finish => FinishDrawing(s)
        case Ignore => s
  }

  // ---------------------------------------------------------------- select mode

  /** `handleDrawingClicked`, which selects with the last pointer point at hand. */
  function HandleDrawingClicked(s: Session, hit: Hit): (r: Session)
    requires hit != NoHit && HitFits(s.drawing, hit)
    ensures r.(drawing := s.drawing, selectionType := s.selectionType) == s
    ensures Ids(r.drawing) == Ids(s.drawing)
    ensures r.selectionType == (if hit.FillHit? then FillSelection else SegmentSelection)
  {
    var c := ClickDrawing(s.drawing, hit, s.shiftDown, s.mouseLastPoint);
    s.(drawing := c.drawing, selectionType := c.selectionType)
  }

  /** `handleCanvasClicked`: deselect everything; the selection type is left as it was. */
  function HandleCanvasClicked(s: Session): (r: Session)
    ensures r.(drawing := s.drawing) == s
    ensures NothingSelected(r.drawing) && r.selectionType == s.selectionType
    ensures |r.drawing| == |s.drawing| && Ids(r.drawing) == Ids(s.drawing)
    ensures forall i :: 0 <= i < |s.drawing| ==>
      SameGeometry(r.drawing[i], s.drawing[i]) && |r.drawing[i].segments| == |s.drawing[i].segments|
    ensures forall i :: 0 <= i < |s.drawing| && !IsSelectedItem(s.drawing[i]) ==> r.drawing[i] == s.drawing[i]
  {
    s.(drawing := DeselectAll(s.drawing))
  }

  /** `handleSelectionMoved`: move by `current - last`, as the selection type says. */
  function HandleSelectionMoved(s: Session): (r: Session)
    ensures r.(drawing := s.drawing) == s
    ensures s.selectionType == NoSelection ==> r == s
    ensures |r.drawing| == |s.drawing| && Ids(r.drawing) == Ids(s.drawing)
    ensures forall i :: 0 <= i < |s.drawing| ==> SameSelection(r.drawing[i], s.drawing[i])
  {
    var delta := GetDelta(s.mouseCurrentPoint, s.mouseLastPoint);
    match s.selectionType
    case FillSelection => s.(drawing := MoveSelectedItems(s.drawing, delta))
    case SegmentSelection => s.(drawing := MoveSelectedSegments(s.drawing, delta))
    case NoSelection => s
  }

  /** `handleSelectionDeleted`: delete as the selection type says. */
  function HandleSelectionDeleted(s: Session): (r: Session)
    ensures r.(drawing := s.drawing) == s
    ensures s.selectionType == NoSelection ==> r == s
    ensures IsSubseq(Ids(r.drawing), Ids(s.drawing))
  {
    match s.selectionType
    case FillSelection => s.(drawing := DeleteSelectedItems(s.drawing))
    case SegmentSelection => s.(drawing := DeleteSelectedSegments(s.drawing))
    case NoSelection => SubseqRefl(Ids(s.drawing)); s
  }

  // ------------------------------------------------------------------- routing

  /**
   * `handleMouseDown`: every press records the press point as origin, last
   * and current point and marks the mouse pressed, then routes on the mode
   * and on whether anything was hit.
   */
  function HandleMouseDown(s: Session, client: Point, bounds: Point, hit: Hit): (r: Session)
    requires HitFits(s.drawing, hit)
    ensures var point := CreatePoint(client, bounds);
      r.mouseOriginPoint == point && r.mouseCurrentPoint == point && r.mouseLastPoint == point && r.mousePressed
    ensures r.drawingMode == s.drawingMode && r.shiftDown == s.shiftDown && r.drawResolution == s.drawResolution
  {
    var point := CreatePoint(client, bounds);
    var pressed := s.(mouseOriginPoint := point, mouseCurrentPoint := point, mouseLastPoint := point, mousePressed := true);
    if s.drawingMode == SelectMode && hit != NoHit then HandleDrawingClicked(pressed, hit)
    else if s.drawingMode == SelectMode then HandleCanvasClicked(pressed)
    else if s.drawingMode == PenMode then HandleDrawingStarted(pressed, point)
    else pressed
  }

  /**
   * `handleMouseMove`: ignored unless the mouse is pressed; otherwise the
   * old current point becomes the last point, the event's point the current
   * one, and the move is routed on the mode.
   */
  function HandleMouseMove(s: Session, client: Point, bounds: Point, nearestDistance: real): (r: Session)
    ensures !s.mousePressed ==> r == s
    ensures s.mousePressed ==>
      r.mouseLastPoint == s.mouseCurrentPoint && r.mouseCurrentPoint == CreatePoint(client, bounds)
      && r.mouseOriginPoint == s.mouseOriginPoint && r.selectionType == s.selectionType
      && r.drawingMode == s.drawingMode && r.shiftDown == s.shiftDown && r.path == s.path
      && r.drawResolution == s.drawResolution && r.nextPathId == s.nextPathId
    ensures IsSubseq(Ids(r.drawing), Ids(s.drawing))
  {
    SubseqRefl(Ids(s.drawing));
    if !s.mousePressed then s
    else
      var point := CreatePoint(client, bounds);
      var moved := s.(mouseLastPoint := s.mouseCurrentPoint, mouseCurrentPoint := point);
      match s.drawingMode
      case PenMode => HandleDrawing(moved, point, nearestDistance)
      case SelectMode => HandleSelectionMoved(moved)
      case OtherMode => moved
  }

  /**
   * `handleMouseUp`: last and current point become the release point and
   * the press ends; in pen mode the current path is finished. A null or
   * detached current path leaves the drawing as it is.
   */
  function HandleMouseUp(s: Session, client: Point, bounds: Point): (r: Session)
    ensures !r.mousePressed && r.drawingMode == s.drawingMode && r.drawResolution == s.drawResolution
    ensures r.mouseCurrentPoint == CreatePoint(client, bounds) && r.mouseLastPoint == CreatePoint(client, bounds)
    ensures r.mouseOriginPoint == s.mouseOriginPoint && r.selectionType == s.selectionType && r.path == s.path
    ensures s.drawingMode != PenMode ==> r.drawing == s.drawing
    ensures IsSubseq(Ids(r.drawing), Ids(s.drawing))
  {
    SubseqRefl(Ids(s.drawing));
    var point := CreatePoint(client, bounds);
    var released := s.(mouseCurrentPoint := point, mouseLastPoint := point, mousePressed := false);
    if s.drawingMode == PenMode && CurrentPathIndex(released).Some? then FinishDrawing(released)
    else released
  }

  /** `handleKeyDown`: record the shift key; Delete and Backspace delete the selection. */
  function HandleKeyDown(s: Session, key: string, shiftKey: bool): (r: Session)
    ensures r.shiftDown == shiftKey
    ensures key != "Delete" && key != "Backspace" ==> r == s.(shiftDown := shiftKey)
    ensures r.(drawing := s.drawing, shiftDown := s.shiftDown) == s
    ensures IsSubseq(Ids(r.drawing), Ids(s.drawing))
  {
    SubseqRefl(Ids(s.drawing));
    var keyed := s.(shiftDown := shiftKey);
    if key == "Delete" || key == "Backspace" then HandleSelectionDeleted(keyed) else keyed
  }

  /** `handleKeyUp`: record the shift key and nothing else. */
  function HandleKeyUp(s: Session, shiftKey: bool): (r: Session)
    ensures r.shiftDown == shiftKey && r.(shiftDown := s.shiftDown) == s
  {
    s.(shiftDown := shiftKey)
  }

  /** One event, routed to its handler. */
  function Step(s: Session, e: Event): (r: Session)
    requires EventFits(s, e)
    ensures r.drawingMode == s.drawingMode && r.drawResolution == s.drawResolution
    ensures !e.MouseDown? ==> r.nextPathId == s.nextPathId
    ensures !e.MouseDown? ==> IsSubseq(Ids(r.drawing), Ids(s.drawing))
  {
    SubseqRefl(Ids(s.drawing));
    match e
    case MouseDown(client, bounds, hit) => HandleMouseDown(s, client, bounds, hit)
    case MouseMove(client, bounds, nearestDistance) => HandleMouseMove(s, client, bounds, nearestDistance)
    case MouseUp(client, bounds) => HandleMouseUp(s, client, bounds)
    case KeyDown(key, shiftKey) => HandleKeyDown(s, key, shiftKey)
    case KeyUp(shiftKey) => HandleKeyUp(s, shiftKey)
  }

  /**
   * A run of events without presses (their hit results depend on the
   * drawing of the moment). Only a press creates a path, so such a run can
   * only delete paths, keeping the others in order.
   */
  function Run(s: Session, es: seq<Event>): (r: Session)
    requires forall k :: 0 <= k < |es| ==> !es[k].MouseDown?
    ensures r.drawingMode == s.drawingMode && r.drawResolution == s.drawResolution
    ensures r.nextPathId == s.nextPathId
    ensures IsSubseq(Ids(r.drawing), Ids(s.drawing)) && |r.drawing| <= |s.drawing|
    decreases |es|
  {
    if |es| == 0 then
      SubseqRefl(Ids(s.drawing));
      s
    else
      var s1 := Step(s, es[0]);
      var r := Run(s1, es[1..]);
      SubseqTrans(Ids(r.drawing), Ids(s1.drawing), Ids(s.drawing));
      SubseqLength(Ids(r.drawing), Ids(s.drawing));
      r
  }
}

=== FILE: canvas_properties.dfy ===
/**
 * Properties of the canvas step function that relate handlers, or a
 * handler and the state it keeps.
 */
module CanvasProperties {
  import opened Wrappers
  import opened Seqs
  import opened Geometry
  import opened Document
  import opened PathBuilder
  import opened Selection
  import opened PaperCanvas

  // ------------------------------------------------------------- invariant

  /** Dropping paths (in order) from a valid session keeps it valid. */
  lemma ValidAfterDeletion(s: Session, d: Drawing)
    requires Valid(s) && IsSubseq(Ids(d), Ids(s.drawing))
    ensures Valid(s.(drawing := d))
  {
    SubseqDistinct(Ids(d), Ids(s.drawing));
    SubseqMembers(Ids(d), Ids(s.drawing));
  }

  lemma ValidAfterFinish(s: Session)
    requires Valid(s) && CurrentPathIndex(s).Some?
    ensures Valid(FinishDrawing(s))
  {
    var i := CurrentPathIndex(s).value;
    ValidAfterDeletion(s, FinishPath(s.drawing, i));
  }

  lemma ValidAfterDrawing(s: Session, point: Point, nearestDistance: real)
    requires Valid(s)
    ensures Valid(HandleDrawing(s, point, nearestDistance))
  {
    match CurrentPathIndex(s)
    case None =>
    case Some(i) =>
      var p := s.drawing[i];
      if |p.segments| > 0 {
        match DrawDecision(|p.segments|, nearestDistance, point, p.segments[0].point, s.drawResolution)
        case AddPoint =>
          assert Ids(s.drawing[i := AppendPoint(p, point)]) == Ids(s.drawing);
        case Finish => ValidAfterFinish(s);
        case Ignore =>
      }
  }

  lemma ValidAfterStart(s: Session, point: Point)
    requires Valid(s)
    ensures Valid(HandleDrawingStarted(s, point))
  {
    var r := HandleDrawingStarted(s, point);
    var ids := Ids(s.drawing);
    assert Ids(r.drawing) == ids + [s.nextPathId];
    assert s.nextPathId !in ids;
    forall i, j | 0 <= i < j < |Ids(r.drawing)| ensures Ids(r.drawing)[i] != Ids(r.drawing)[j] {
      if j == |ids| {
        assert ids[i] in ids;
      }
    }
  }

  /** Every event keeps the paths distinct and the identity counter ahead of them. */
  lemma StepPreservesValid(s: Session, e: Event)
    requires Valid(s) && EventFits(s, e)
    ensures Valid(Step(s, e))
  {
    match e
    case MouseDown(client, bounds, hit) => ValidAfterMouseDown(s, client, bounds, hit);
    case MouseMove(client, bounds, nearestDistance) => ValidAfterMouseMove(s, client, bounds, nearestDistance);
    case MouseUp(client, bounds) => ValidAfterMouseUp(s, client, bounds);
    case KeyDown(key, shiftKey) =>
      var r := HandleKeyDown(s, key, shiftKey);
      if key == "Delete" || key == "Backspace" {
        ValidAfterDeletion(s, r.drawing);
        assert r == s.(drawing := r.drawing, shiftDown := shiftKey);
      }
    case KeyUp(shiftKey) =>
  }

  lemma ValidAfterMouseDown(s: Session, client: Point, bounds: Point, hit: Hit)
    requires Valid(s) && HitFits(s.drawing, hit)
    ensures Valid(HandleMouseDown(s, client, bounds, hit))
  {
    var point := CreatePoint(client, bounds);
    var pressed := s.(mouseOriginPoint := point, mouseCurrentPoint := point, mouseLastPoint := point, mousePressed := true);
    if s.drawingMode == PenMode {
      ValidAfterStart(pressed, point);
    }
  }

  lemma ValidAfterMouseMove(s: Session, client: Point, bounds: Point, nearestDistance: real)
    requires Valid(s)
    ensures Valid(HandleMouseMove(s, client, bounds, nearestDistance))
  {
    if s.mousePressed && s.drawingMode == PenMode {
      var point := CreatePoint(client, bounds);
      ValidAfterDrawing(s.(mouseLastPoint := s.mouseCurrentPoint, mouseCurrentPoint := point), point, nearestDistance);
    }
  }

  lemma ValidAfterMouseUp(s: Session, client: Point, bounds: Point)
    requires Valid(s)
    ensures Valid(HandleMouseUp(s, client, bounds))
  {
    var point := CreatePoint(client, bounds);
    var released := s.(mouseCurrentPoint := point, mouseLastPoint := point, mousePressed := false);
    if s.drawingMode == PenMode && CurrentPathIndex(released).Some? {
      ValidAfterFinish(released);
    }
  }

  // -------------------------------------------------------------- pen mode

  /**
   * A pen press appends a new path holding only the press point, fully
   * selected, makes it the current path, and deselects the previous
   * current path; every other path is untouched.
   */
  lemma PenPressStartsPath(s: Session, client: Point, bounds: Point, hit: Hit)
    requires Valid(s) && s.drawingMode == PenMode && HitFits(s.drawing, hit)
    ensures var r := HandleMouseDown(s, client, bounds, hit);
      && Valid(r)
      && CurrentPathIndex(r) == Some(|s.drawing|)
      && |r.drawing| == |s.drawing| + 1
      && Points(r.drawing[|s.drawing|].segments) == [CreatePoint(client, bounds)]
      && r.drawing[|s.drawing|].selected && r.drawing[|s.drawing|].segments[0].selected
      && (forall i :: 0 <= i < |s.drawing| && Some(s.drawing[i].id) != s.path ==> r.drawing[i] == s.drawing[i])
      && (forall i :: 0 <= i < |s.drawing| && Some(s.drawing[i].id) == s.path ==>
            !IsSelectedItem(r.drawing[i]) && SameGeometry(r.drawing[i], s.drawing[i]))
  {
    var r := HandleMouseDown(s, client, bounds, hit);
    StepPreservesValid(s, MouseDown(client, bounds, hit));
    assert Step(s, MouseDown(client, bounds, hit)) == r;
    IndexOfDistinct(r.drawing, |s.drawing|);
  }

  /**
   * A pen move while pressed does exactly one of three things to the
   * current path: appends the pointer point when it is farther than the
   * resolution from the path; otherwise finishes the path when the point is
   * within the resolution of the first segment and the path has more than
   * `MinimumPointsPerPath` segments; otherwise nothing.
   */
  lemma PenMoveAppendsFinishesOrIgnores(s: Session, client: Point, bounds: Point, nearestDistance: real)
    requires s.drawingMode == PenMode && s.mousePressed
    requires CurrentPathIndex(s).Some? && |s.drawing[CurrentPathIndex(s).value].segments| > 0
    ensures var r := HandleMouseMove(s, client, bounds, nearestDistance);
      var i := CurrentPathIndex(s).value;
      var before := s.drawing[i].segments;
      var point := CreatePoint(client, bounds);
      && (nearestDistance > s.drawResolution as real ==>
            && r.mousePressed
            && |r.drawing| == |s.drawing|
            && r.drawing[i].segments == before + [Segment(point, false)]
            && forall k :: 0 <= k < |s.drawing| && k != i ==> r.drawing[k] == s.drawing[k])
      && (nearestDistance <= s.drawResolution as real && CloserThan(point, before[0].point, s.drawResolution)
            && |before| > MinimumPointsPerPath ==>
            && !r.mousePressed
            && |r.drawing| == |s.drawing|
            && r.drawing[i].segments == before + [Segment(before[0].point, false)]
            && forall k :: 0 <= k < |s.drawing| && k != i ==> r.drawing[k] == s.drawing[k])
      && (nearestDistance <= s.drawResolution as real
            && !(CloserThan(point, before[0].point, s.drawResolution) && |before| > MinimumPointsPerPath) ==>
            r.mousePressed && r.drawing == s.drawing)
  {
    var point := CreatePoint(client, bounds);
    var moved := s.(mouseLastPoint := s.mouseCurrentPoint, mouseCurrentPoint := point);
    assert CurrentPathIndex(moved) == CurrentPathIndex(s);
  }

  /**
   * After a loop closes early during a move, the release finishes the same
   * path again: the path ends with two extra segments at its first point.
   */
  lemma EarlyClosureThenReleaseClosesTwice(s: Session, move: Point, release: Point, bounds: Point, nearestDistance: real)
    requires Valid(s) && s.drawingMode == PenMode && s.mousePressed
    requires CurrentPathIndex(s).Some? && |s.drawing[CurrentPathIndex(s).value].segments| > MinimumPointsPerPath
    requires nearestDistance <= s.drawResolution as real
    requires CloserThan(CreatePoint(move, bounds), s.drawing[CurrentPathIndex(s).value].segments[0].point, s.drawResolution)
    ensures var closed := HandleMouseMove(s, move, bounds, nearestDistance);
      var r := HandleMouseUp(closed, release, bounds);
      var i := CurrentPathIndex(s).value;
      var before := s.drawing[i].segments;
      && !closed.mousePressed
      && |r.drawing| == |s.drawing|
      && r.drawing[i].segments == before + [Segment(before[0].point, false), Segment(before[0].point, false)]
  {
    var closed := HandleMouseMove(s, move, bounds, nearestDistance);
    var i := CurrentPathIndex(s).value;
    var before := s.drawing[i].segments;
    PenMoveAppendsFinishesOrIgnores(s, move, bounds, nearestDistance);
    StepPreservesValid(s, MouseMove(move, bounds, nearestDistance));
    assert Step(s, MouseMove(move, bounds, nearestDistance)) == closed;
    IndexOfDistinct(closed.drawing, i);
  }

  /** The canvas-local points of a run of pointer events. */
  function MovePoints(es: seq<Event>): (ps: seq<Point>)
    requires forall k :: 0 <= k < |es| ==> es[k].MouseMove?
    ensures |ps| == |es|
    ensures forall k :: 0 <= k < |es| ==> ps[k] == CreatePoint(es[k].client, es[k].bounds)
  {
    seq(|es|, k requires 0 <= k < |es| && es[k].MouseMove? => CreatePoint(es[k].client, es[k].bounds))
  }

  /**
   * `r` is `s` with the points `ps` appended to the current path at index
   * `i`, the pen still pressed, and every other path untouched.
   */
  predicate AppendedAlong(s: Session, r: Session, i: nat, ps: seq<Point>) {
    && i < |s.drawing| && |s.drawing[i].segments| > 0
    && Valid(r) && r.mousePressed && r.drawingMode == PenMode && r.drawResolution == s.drawResolution
    && CurrentPathIndex(r) == Some(i)
    && |r.drawing| == |s.drawing|
    && r.drawing[i].id == s.drawing[i].id && r.drawing[i].selected == s.drawing[i].selected
    && Points(r.drawing[i].segments) == Points(s.drawing[i].segments) + ps
    && r.drawing[i].segments[0] == s.drawing[i].segments[0]
    && forall k :: 0 <= k < |s.drawing| && k != i ==> r.drawing[k] == s.drawing[k]
  }

  lemma AppendedAlongTrans(s: Session, s1: Session, r: Session, i: nat, ps: seq<Point>, qs: seq<Point>)
    requires AppendedAlong(s, s1, i, ps) && AppendedAlong(s1, r, i, qs)
    ensures AppendedAlong(s, r, i, ps + qs)
  {}

  /**
   * While the pen stays pressed, pointer samples that are each farther than
   * the resolution from the path are appended to the current path in order.
   */
  lemma {:induction false} FarPenMovesAppendInOrder(s: Session, es: seq<Event>)
    requires Valid(s) && s.drawingMode == PenMode && s.mousePressed
    requires CurrentPathIndex(s).Some? && |s.drawing[CurrentPathIndex(s).value].segments| > 0
    requires FarMoves(es, s.drawResolution)
    ensures AppendedAlong(s, Run(s, es), CurrentPathIndex(s).value, MovePoints(es))
    decreases |es|
  {
    var i := CurrentPathIndex(s).value;
    if |es| == 0 {
      assert MovePoints(es) == [];
      assert Points(s.drawing[i].segments) + [] == Points(s.drawing[i].segments);
    } else {
      var e := es[0];
      var s1 := Step(s, e);
      FarPenMoveAppends(s, e);
      FarMovesTail(es, s.drawResolution);
      FarPenMovesAppendInOrder(s1, es[1..]);
      var r := Run(s1, es[1..]);
      RunFirst(s, es);
      MovePointsFirst(es);
      AppendedAlongTrans(s, s1, r, i, [CreatePoint(e.client, e.bounds)], MovePoints(es[1..]));
    }
  }

  lemma RunFirst(s: Session, es: seq<Event>)
    requires |es| > 0 && forall k :: 0 <= k < |es| ==> !es[k].MouseDown?
    ensures Run(s, es) == Run(Step(s, es[0]), es[1..])
  {}

  lemma MovePointsFirst(es: seq<Event>)
    requires |es| > 0 && forall k :: 0 <= k < |es| ==> es[k].MouseMove?
    ensures MovePoints(es) == [CreatePoint(es[0].client, es[0].bounds)] + MovePoints(es[1..])
  {}

  lemma FarMovesTail(es: seq<Event>, resolution: nat)
    requires |es| > 0 && FarMoves(es, resolution)
    ensures FarMoves(es[1..], resolution)
  {
    forall k | 0 <= k < |es[1..]| ensures es[1..][k].MouseMove? && es[1..][k].nearestDistance > resolution as real {
      assert es[1..][k] == es[k + 1];
    }
  }

  /** Pointer moves that are each farther than the resolution from the path. */
  predicate FarMoves(es: seq<Event>, resolution: nat) {
    forall k :: 0 <= k < |es| ==> es[k].MouseMove? && es[k].nearestDistance > resolution as real
  }

  /** One step of the above. */
  lemma FarPenMoveAppends(s: Session, e: Event)
    requires Valid(s) && s.drawingMode == PenMode && s.mousePressed
    requires CurrentPathIndex(s).Some? && |s.drawing[CurrentPathIndex(s).value].segments| > 0
    requires e.MouseMove? && e.nearestDistance > s.drawResolution as real
    ensures AppendedAlong(s, Step(s, e), CurrentPathIndex(s).value, [CreatePoint(e.client, e.bounds)])
  {
    var i := CurrentPathIndex(s).value;
    var point := CreatePoint(e.client, e.bounds);
    var s1 := Step(s, e);
    assert s1 == HandleMouseMove(s, e.client, e.bounds, e.nearestDistance);
    PenMoveAppendsFinishesOrIgnores(s, e.client, e.bounds, e.nearestDistance);
    StepPreservesValid(s, e);
    var before := s.drawing[i].segments;
    assert s1.drawing[i].segments == before + [Segment(point, false)];
    IndexOfDistinct(s1.drawing, i);
    PointsAppend(before, [Segment(point, false)]);
  }

  /**
   * A whole pen stroke: press, samples that are each farther than the
   * resolution from the path, release. The new path holds the press point
   * and the samples in order, and, when that is more than
   * `MinimumPointsPerPath` points, ends with the press point again (a closed
   * loop); otherwise it is gone and the drawing is as before the press,
   * but for the deselected previous path.
   */
  lemma PenStrokeIsClosedOrDiscarded(s: Session, press: Point, bounds: Point, hit: Hit, moves: seq<Event>, release: Point)
    requires Valid(s) && s.drawingMode == PenMode && HitFits(s.drawing, hit)
    requires FarMoves(moves, s.drawResolution)
    ensures var pressed := HandleMouseDown(s, press, bounds, hit);
      var r := HandleMouseUp(Run(pressed, moves), release, bounds);
      var p0 := CreatePoint(press, bounds);
      && !r.mousePressed
      && (1 + |moves| > MinimumPointsPerPath ==>
            && |r.drawing| == |s.drawing| + 1
            && Points(r.drawing[|s.drawing|].segments) == [p0] + MovePoints(moves) + [p0])
      && (1 + |moves| <= MinimumPointsPerPath ==>
            && |r.drawing| == |s.drawing|
            && forall k :: 0 <= k < |s.drawing| ==> SameGeometry(r.drawing[k], s.drawing[k]))
  {
    var pressed := HandleMouseDown(s, press, bounds, hit);
    PenPressStartsPath(s, press, bounds, hit);
    var n := |s.drawing|;
    FarPenMovesAppendInOrder(pressed, moves);
    var drawn := Run(pressed, moves);
    var p0 := CreatePoint(press, bounds);
    var point := CreatePoint(release, bounds);
    var released := drawn.(mouseCurrentPoint := point, mouseLastPoint := point, mousePressed := false);
    assert CurrentPathIndex(released) == Some(n);
    var before := drawn.drawing[n].segments;
    assert Points(before) == [p0] + MovePoints(moves);
    assert before[0].point == p0;
    if 1 + |moves| > MinimumPointsPerPath {
      PointsAppend(before, [Segment(p0, false)]);
    }
  }

  // ----------------------------------------------------------- select mode

  /**
   * Dragging with a segment selection, through any number of pointer moves,
   * translates exactly the selected segments by the span of the drag: the
   * final pointer point minus the one before the first move.
   */
  lemma {:induction false} SegmentDragTranslatesBySpan(s: Session, es: seq<Event>)
    requires s.mousePressed && s.drawingMode == SelectMode && s.selectionType == SegmentSelection
    requires forall k :: 0 <= k < |es| ==> es[k].MouseMove?
    ensures var r := Run(s, es);
      r.drawing == MoveSelectedSegments(s.drawing, GetDelta(r.mouseCurrentPoint, s.mouseCurrentPoint))
    decreases |es|
  {
    if |es| == 0 {
      MoveSelectedSegmentsZero(s.drawing);
      assert GetDelta(s.mouseCurrentPoint, s.mouseCurrentPoint) == Zero;
    } else {
      var s1 := Step(s, es[0]);
      SegmentDragTranslatesBySpan(s1, es[1..]);
      var r := Run(s1, es[1..]);
      MoveSelectedSegmentsCompose(s.drawing, GetDelta(s1.mouseCurrentPoint, s.mouseCurrentPoint), GetDelta(r.mouseCurrentPoint, s1.mouseCurrentPoint));
      DeltasTelescope(s.mouseCurrentPoint, s1.mouseCurrentPoint, r.mouseCurrentPoint);
    }
  }

  /**
   * Dragging with a fill selection, through any number of pointer moves,
   * translates every selected item by the span of the drag and nothing else.
   */
  lemma {:induction false} FillDragTranslatesBySpan(s: Session, es: seq<Event>)
    requires s.mousePressed && s.drawingMode == SelectMode && s.selectionType == FillSelection
    requires forall k :: 0 <= k < |es| ==> es[k].MouseMove?
    ensures var r := Run(s, es);
      r.drawing == MoveSelectedItems(s.drawing, GetDelta(r.mouseCurrentPoint, s.mouseCurrentPoint))
    decreases |es|
  {
    if |es| == 0 {
      MoveSelectedItemsZero(s.drawing);
      assert GetDelta(s.mouseCurrentPoint, s.mouseCurrentPoint) == Zero;
    } else {
      var s1 := Step(s, es[0]);
      FillDragTranslatesBySpan(s1, es[1..]);
      var r := Run(s1, es[1..]);
      MoveSelectedItemsCompose(s.drawing, GetDelta(s1.mouseCurrentPoint, s.mouseCurrentPoint), GetDelta(r.mouseCurrentPoint, s1.mouseCurrentPoint));
      DeltasTelescope(s.mouseCurrentPoint, s1.mouseCurrentPoint, r.mouseCurrentPoint);
    }
  }

  /**
   * A select-mode press without shift on something leaves exactly the hit
   * path selected; on empty canvas it leaves nothing selected and the
   * selection type as it was.
   */
  lemma PlainClickSelectsOnlyHitPath(s: Session, client: Point, bounds: Point, hit: Hit)
    requires s.drawingMode == SelectMode && !s.shiftDown && HitFits(s.drawing, hit)
    ensures var r := HandleMouseDown(s, client, bounds, hit);
      && |r.drawing| == |s.drawing|
      && (hit != NoHit ==> forall m :: 0 <= m < |r.drawing| ==> (IsSelectedItem(r.drawing[m]) <==> m == hit.path))
      && (hit == NoHit ==> NothingSelected(r.drawing) && r.selectionType == s.selectionType)
  {
    var r := HandleMouseDown(s, client, bounds, hit);
    if hit != NoHit {
      var i := hit.path;
      match hit
      case FillHit(_) =>
      case SegmentHit(_, j) =>
        assert r.drawing[i].segments[j].selected;
      case StrokeHit(_, k) =>
        assert r.drawing[i].segments[k + 1].selected;
    }
  }

  /**
   * A select-mode press with shift held keeps every selected item selected
   * and adds the hit path.
   */
  lemma ShiftClickKeepsSelection(s: Session, client: Point, bounds: Point, hit: Hit)
    requires s.drawingMode == SelectMode && s.shiftDown && hit != NoHit && HitFits(s.drawing, hit)
    ensures var r := HandleMouseDown(s, client, bounds, hit);
      && |r.drawing| == |s.drawing|
      && IsSelectedItem(r.drawing[hit.path])
      && forall m :: 0 <= m < |s.drawing| && IsSelectedItem(s.drawing[m]) ==> IsSelectedItem(r.drawing[m])
  {
    var r := HandleMouseDown(s, client, bounds, hit);
    var d := s.drawing;
    var i := hit.path;
    match hit
    case FillHit(_) =>
      assert r.drawing == ClickFill(d, i, true);
    case SegmentHit(_, j) =>
      ShiftClickKeepsOthers(d, i, r.drawing);
    case StrokeHit(_, loc) =>
      ShiftClickKeepsOthers(d, i, r.drawing);
  }

  /** A shift click that leaves the hit path's own flag set keeps every selected item selected. */
  lemma ShiftClickKeepsOthers(d: Drawing, i: nat, r: Drawing)
    requires i < |d| && |r| == |d| && OthersAfterClick(d, r, i, true) && r[i].selected
    ensures forall m :: 0 <= m < |d| && IsSelectedItem(d[m]) ==> IsSelectedItem(r[m])
  {
    forall m | 0 <= m < |d| && IsSelectedItem(d[m]) && m != i ensures IsSelectedItem(r[m]) {
      assert r[m] == d[m];
    }
  }

  /** A stroke click inserts the press point itself, selected, and records a segment selection. */
  lemma StrokeClickInsertsPressPoint(s: Session, client: Point, bounds: Point, i: nat, location: nat)
    requires s.drawingMode == SelectMode && HitFits(s.drawing, StrokeHit(i, location))
    ensures var r := HandleMouseDown(s, client, bounds, StrokeHit(i, location));
      var before := Points(s.drawing[i].segments);
      && r.selectionType == SegmentSelection
      && Points(r.drawing[i].segments) == before[..location + 1] + [CreatePoint(client, bounds)] + before[location + 1..]
      && r.drawing[i].segments[location + 1].selected
  {}

  /** Delete and Backspace act the same in every drawing mode. */
  lemma DeleteKeyIgnoresMode(s: Session, key: string, shiftKey: bool, mode: DrawingMode)
    ensures HandleKeyDown(s.(drawingMode := mode), key, shiftKey) == HandleKeyDown(s, key, shiftKey).(drawingMode := mode)
  {}

  /**
   * Delete with a fill selection removes every selected item; with a
   * segment selection no selected item is left with fewer than
   * `MinimumPointsPerPath` segments; with no selection type it does nothing.
   */
  lemma DeleteKeyBySelectionType(s: Session, shiftKey: bool)
    ensures var r := HandleKeyDown(s, "Delete", shiftKey);
      && (s.selectionType == FillSelection ==>
            && NothingSelected(r.drawing) && IsSubseq(r.drawing, s.drawing)
            && (forall p :: p in s.drawing && IsSelectedItem(p) ==> p !in r.drawing)
            && (forall p :: p in s.drawing && !IsSelectedItem(p) ==> p in r.drawing))
      && (s.selectionType == SegmentSelection ==>
            && (forall q :: q in r.drawing && q !in s.drawing ==> |q.segments| >= MinimumPointsPerPath)
            && (forall p :: p in s.drawing && !IsSelectedItem(p) ==> p in r.drawing))
      && (s.selectionType == NoSelection ==> r.drawing == s.drawing)
  {
    if s.selectionType == SegmentSelection {
      DeleteSelectedSegmentsKeeps(s.drawing);
    }
  }
}

=== FILE: document.dfy ===
/**
 * The vector document the canvas edits: the children of the active paper.js
 * layer, each a path of segments. Selection is recorded twice, as in
 * paper.js: a flag on the path and a flag on every segment.
 */
module Document {
  import opened Wrappers
  import opened Seqs
  import opened Geometry

  /** `minimumPointsPerPath`: a path needs more than this many segments to be closed, and at least this many to survive a segment deletion. */
  const MinimumPointsPerPath: nat := 3

  datatype Segment = Segment(point: Point, selected: bool)

  /** A paper.js path; `id` stands for the object's identity. */
  datatype Path = Path(id: nat, segments: seq<Segment>, selected: bool)

  type Drawing = seq<Path>

  function Points(segments: seq<Segment>): (ps: seq<Point>)
    ensures |ps| == |segments|
    ensures forall j :: 0 <= j < |segments| ==> ps[j] == segments[j].point
  {
    seq(|segments|, j requires 0 <= j < |segments| => segments[j].point)
  }

  lemma PointsAppend(a: seq<Segment>, b: seq<Segment>)
    ensures Points(a + b) == Points(a) + Points(b)
  {}

  function Ids(d: Drawing): (ids: seq<nat>)
    ensures |ids| == |d|
    ensures forall i :: 0 <= i < |d| ==> ids[i] == d[i].id
  {
    seq(|d|, i requires 0 <= i < |d| => d[i].id)
  }

  /** Two paths are the same object with the same outline; only selection may differ. */
  predicate SameGeometry(p: Path, q: Path) {
    p.id == q.id && Points(p.segments) == Points(q.segments)
  }

  predicate HasSelectedSegment(p: Path) {
    exists j :: 0 <= j < |p.segments| && p.segments[j].selected
  }

  /**
   * What `project.getSelectedItems()` returns, as assumed of paper.js: a path
   * is a selected item when its own flag is set or any of its segments is.
   */
  predicate IsSelectedItem(p: Path) {
    p.selected || HasSelectedSegment(p)
  }

  predicate NothingSelected(d: Drawing) {
    forall i :: 0 <= i < |d| ==> !IsSelectedItem(d[i])
  }

  /** The segments whose flag is clear, in their order. */
  function Unselected(segments: seq<Segment>): (r: seq<Segment>)
    ensures forall k :: 0 <= k < |r| ==> !r[k].selected
    ensures forall k :: 0 <= k < |segments| && !segments[k].selected ==> segments[k] in r
  {
    if |segments| == 0 then []
    else
      var rest := Unselected(segments[1..]);
      assert forall k :: 1 <= k < |segments| ==> segments[k] == segments[1..][k - 1];
      if segments[0].selected then rest else [segments[0]] + rest
  }

  /**
   * Index of the path with the given identity, if it is still in the drawing
   * (a removed paper.js path lives on as a detached object).
   */
  function IndexOf(d: Drawing, id: nat): (r: Option<nat>)
    ensures r.Some? ==> r.value < |d| && d[r.value].id == id
    ensures r.None? <==> id !in Ids(d)
  {
    if |d| == 0 then None
    else if d[0].id == id then Some(0)
    else
      match IndexOf(d[1..], id)
      case Some(k) => Some(k + 1)
      case None =>
        assert Ids(d) == [d[0].id] + Ids(d[1..]);
        None
  }

  /**
   * `path.selected = false`: in paper.js, deselecting a path also deselects
   * every one of its segments.
   */
  function DeselectPath(p: Path): (q: Path)
    ensures !IsSelectedItem(q)
    ensures SameGeometry(q, p) && |q.segments| == |p.segments|
  {
    Path(p.id, seq(|p.segments|, j requires 0 <= j < |p.segments| => p.segments[j].(selected := false)), false)
  }

  /** `deselectAll`: every selected item is deselected; nothing else moves or changes. */
  function DeselectAll(d: Drawing): (r: Drawing)
    ensures |r| == |d| && NothingSelected(r) && Ids(r) == Ids(d)
    ensures forall i :: 0 <= i < |d| ==> SameGeometry(r[i], d[i]) && |r[i].segments| == |d[i].segments|
    ensures forall i :: 0 <= i < |d| && !IsSelectedItem(d[i]) ==> r[i] == d[i]
  {
    seq(|d|, i requires 0 <= i < |d| => if IsSelectedItem(d[i]) then DeselectPath(d[i]) else d[i])
  }

  /** Deselecting everything twice is the same as once. */
  lemma DeselectAllIdempotent(d: Drawing)
    ensures DeselectAll(DeselectAll(d)) == DeselectAll(d)
  {
    var once := DeselectAll(d);
    assert forall i :: 0 <= i < |once| ==> !IsSelectedItem(once[i]);
  }

  /** `item.remove()` for the path at index `i`: the others stay, in order. */
  function RemoveAt(d: Drawing, i: nat): (r: Drawing)
    requires i < |d|
    ensures |r| == |d| - 1
    ensures forall k :: 0 <= k < i ==> r[k] == d[k]
    ensures forall k :: i <= k < |r| ==> r[k] == d[k + 1]
    ensures IsSubseq(Ids(r), Ids(d))
  {
    var r := d[..i] + d[i + 1..];
    RemoveAtSubseq(Ids(d), i);
    assert Ids(r) == Ids(d)[..i] + Ids(d)[i + 1..];
    r
  }

  /** In a drawing of distinct paths, looking a path up by identity finds its index. */
  lemma {:induction false} IndexOfDistinct(d: Drawing, i: nat)
    requires Distinct(Ids(d)) && i < |d|
    ensures IndexOf(d, d[i].id) == Some(i)
    decreases i
  {
    if i > 0 {
      var ids := Ids(d);
      var tail := Ids(d[1..]);
      assert ids[0] != ids[i];
      assert Distinct(tail) by {
        forall a, b | 0 <= a < b < |tail| ensures tail[a] != tail[b] {
          assert tail[a] == ids[a + 1] && tail[b] == ids[b + 1];
        }
      }
      IndexOfDistinct(d[1..], i - 1);
      assert d[1..][i - 1] == d[i];
    }
  }
}

=== FILE: geometry.dfy ===
/**
 * Canvas-local points with exact integer coordinates, and the point
 * arithmetic the canvas hook performs through paper.js points.
 */
module Geometry {

  datatype Point = Point(x: int, y: int)

  const Zero := Point(0, 0)

  function Add(a: Point, b: Point): Point {
    Point(a.x + b.x, a.y + b.y)
  }

  function Negate(a: Point): Point {
    Point(-a.x, -a.y)
  }

  /** `createPoint`: client (viewport) coordinates made relative to the canvas bounding box. */
  function CreatePoint(client: Point, boundsOrigin: Point): (p: Point)
    ensures Add(p, boundsOrigin) == client
    ensures p.x == client.x - boundsOrigin.x && p.y == client.y - boundsOrigin.y
  {
    Point(client.x - boundsOrigin.x, client.y - boundsOrigin.y)
  }

  /** `getDelta(a, b)`: the displacement that carries `b` onto `a`. */
  function GetDelta(a: Point, b: Point): (d: Point)
    ensures Add(b, d) == a
  {
    Point(a.x - b.x, a.y - b.y)
  }

  /** Square of the Euclidean distance; exact on integer points. */
  function SquaredDistance(a: Point, b: Point): (r: nat)
    ensures r == 0 <==> a == b
  {
    var dx := a.x - b.x;
    var dy := a.y - b.y;
    assert dx != 0 ==> dx * dx > 0;
    assert dy != 0 ==> dy * dy > 0;
    dx * dx + dy * dy
  }

  /**
   * `getDistance(a, b) < resolution`. Both sides are non-negative, so the
   * comparison is the same as comparing squares, which needs no square root.
   */
  predicate CloserThan(a: Point, b: Point, resolution: nat) {
    SquaredDistance(a, b) < resolution * resolution
  }

  /** Successive pointer deltas add up to the delta over the whole drag. */
  lemma DeltasTelescope(a: Point, b: Point, c: Point)
    ensures Add(GetDelta(b, a), GetDelta(c, b)) == GetDelta(c, a)
  {}

  /**
   * A point is within any positive resolution of itself, and no two points
   * are within a zero resolution of each other.
   */
  lemma CloserThanSelf(a: Point, b: Point, resolution: nat)
    ensures CloserThan(a, a, resolution) <==> resolution > 0
    ensures !CloserThan(a, b, 0)
  {
    assert resolution > 0 ==> resolution * resolution > 0;
  }
}

=== FILE: path_builder.dfy ===
/**
 * Pen mode: a freehand path is seeded at the press point, densified by the
 * sampling rule while the pointer moves, and closed or discarded when the
 * stroke finishes.
 */
module PathBuilder {
  import opened Wrappers
  import opened Seqs
  import opened Geometry
  import opened Document

  /** What `handleDrawing` does with one pointer sample. */
  datatype DrawAction = AddPoint | Finish | Ignore

  /**
   * The sampling and early-closure rules of `handleDrawing`. `nearestDistance`
   * is what paper.js reports for `getDistance(point, path.getNearestPoint(point))`;
   * on a one-segment path that is the distance to the origin, since no curve
   * exists. The distance to the first segment is computed exactly.
   */
  function DrawDecision(count: nat, nearestDistance: real, point: Point, first: Point, resolution: nat): (a: DrawAction)
    ensures a == AddPoint <==> nearestDistance > resolution as real
    ensures a == Finish <==>
      nearestDistance <= resolution as real && CloserThan(point, first, resolution) && count > MinimumPointsPerPath
  {
    if nearestDistance > resolution as real then AddPoint
    else if CloserThan(point, first, resolution) && count > MinimumPointsPerPath then Finish
    else Ignore
  }

  /**
   * The early-closure rule in two cases. A sample exactly on the first point
   * finishes a path longer than `MinimumPointsPerPath` exactly when it is
   * not far from the path and the resolution is positive. A zero resolution
   * never finishes a path early, wherever the sample lies.
   */
  lemma EarlyClosureCases(count: nat, nearestDistance: real, point: Point, first: Point, resolution: nat)
    ensures DrawDecision(count, nearestDistance, first, first, resolution) == Finish <==>
      nearestDistance <= resolution as real && resolution > 0 && count > MinimumPointsPerPath
    ensures DrawDecision(count, nearestDistance, point, first, 0) != Finish
  {
    CloserThanSelf(first, first, resolution);
    CloserThanSelf(point, first, 0);
  }

  /** The path `createPath` builds at a pen press: one segment, fully selected. */
  function NewPath(id: nat, point: Point): (p: Path)
    ensures p.id == id && IsSelectedItem(p)
    ensures Points(p.segments) == [point]
  {
    Path(id, [Segment(point, true)], true)
  }

  /**
   * `handleDrawingStarted` on the drawing: the previous path, if any, is
   * deselected, and a new path holding the press point is appended.
   */
  function StartPath(d: Drawing, previous: Option<nat>, id: nat, point: Point): (r: Drawing)
    ensures |r| == |d| + 1 && r[|d|] == NewPath(id, point)
    ensures Ids(r) == Ids(d) + [id]
    ensures forall i :: 0 <= i < |d| ==> SameGeometry(r[i], d[i])
    ensures forall i :: 0 <= i < |d| && previous == Some(d[i].id) ==> !IsSelectedItem(r[i])
    ensures forall i :: 0 <= i < |d| && previous != Some(d[i].id) ==> r[i] == d[i]
  {
    var kept := seq(|d|, i requires 0 <= i < |d| => if previous == Some(d[i].id) then DeselectPath(d[i]) else d[i]);
    kept + [NewPath(id, point)]
  }

  /** `path.add(point)`: a new, unselected segment at the end. */
  function AppendPoint(p: Path, point: Point): (q: Path)
    ensures q.id == p.id && q.selected == p.selected
    ensures |q.segments| == |p.segments| + 1
    ensures q.segments[..|p.segments|] == p.segments
    ensures q.segments[|p.segments|] == Segment(point, false)
  {
    p.(segments := p.segments + [Segment(point, false)])
  }

  /**
   * `finishDrawing` on the drawing, for the current path at index `i`: a path
   * with more than `MinimumPointsPerPath` segments is closed by re-adding its
   * first point; any other is removed.
   */
  function FinishPath(d: Drawing, i: nat): (r: Drawing)
    requires i < |d|
    ensures IsSubseq(Ids(r), Ids(d))
    ensures |d[i].segments| > MinimumPointsPerPath ==>
      && |r| == |d|
      && (forall k :: 0 <= k < |d| && k != i ==> r[k] == d[k])
      && r[i].id == d[i].id && r[i].selected == d[i].selected
      && |r[i].segments| == |d[i].segments| + 1
      && r[i].segments[..|d[i].segments|] == d[i].segments
      && r[i].segments[|d[i].segments|].point == r[i].segments[0].point
    ensures |d[i].segments| <= MinimumPointsPerPath ==>
      && |r| == |d| - 1
      && (forall k :: 0 <= k < i ==> r[k] == d[k])
      && (forall k :: i <= k < |r| ==> r[k] == d[k + 1])
  {
    var p := d[i];
    if |p.segments| > MinimumPointsPerPath then
      var q := AppendPoint(p, p.segments[0].point);
      assert Ids(d[i := q]) == Ids(d);
      SubseqRefl(Ids(d));
      d[i := q]
    else
      RemoveAt(d, i)
  }
}

=== FILE: selection.dfy ===
/**
 * Select mode: click-to-select by hit kind, multi-select with shift,
 * drag-to-move and delete, each dispatched on the recorded selection type.
 */
module Selection {
  import opened Seqs
  import opened Geometry
  import opened Document

  /** `selectionType`: `null`, `'fill'` or `'segment'` (a stroke hit is recorded as `'segment'`). */
  datatype SelectionType = NoSelection | FillSelection | SegmentSelection

  /**
   * What `project.hitTest` reports at the press point, by index into the
   * drawing. A stroke hit names the curve it lies on: curve `k` of an open
   * path joins segments `k` and `k + 1`.
   */
  datatype Hit =
    | NoHit
    | FillHit(path: nat)
    | SegmentHit(path: nat, segment: nat)
    | StrokeHit(path: nat, location: nat)

  /** What paper.js guarantees of a hit: it names a path, segment or curve that exists. */
  predicate HitFits(d: Drawing, hit: Hit) {
    match hit
    case NoHit => true
    case FillHit(i) => i < |d|
    case SegmentHit(i, j) => i < |d| && j < |d[i].segments|
    case StrokeHit(i, k) => i < |d| && k + 1 < |d[i].segments|
  }

  /** Same path, same segment count, same flags; only points may differ. */
  predicate SameSelection(p: Path, q: Path) {
    && p.id == q.id && p.selected == q.selected && |p.segments| == |q.segments|
    && forall j :: 0 <= j < |p.segments| ==> p.segments[j].selected == q.segments[j].selected
  }

  // ---------------------------------------------------------------- clicking

  /** `item.fullySelected = true; item.selected = true`. */
  function FullySelect(p: Path): (q: Path)
    ensures q.selected && SameGeometry(q, p) && |q.segments| == |p.segments|
    ensures forall j :: 0 <= j < |q.segments| ==> q.segments[j].selected
  {
    Path(p.id, seq(|p.segments|, j requires 0 <= j < |p.segments| => p.segments[j].(selected := true)), true)
  }

  /**
   * `segment.selected = true` for segment `j` of path `i`. As in paper.js,
   * selecting a segment also sets the flag of the path that holds it.
   */
  function SelectSegment(d: Drawing, i: nat, j: nat): (r: Drawing)
    requires i < |d| && j < |d[i].segments|
    ensures |r| == |d| && forall m :: 0 <= m < |d| && m != i ==> r[m] == d[m]
    ensures SameGeometry(r[i], d[i]) && r[i].selected && |r[i].segments| == |d[i].segments|
    ensures forall k :: 0 <= k < |d[i].segments| ==> r[i].segments[k].selected == (k == j || d[i].segments[k].selected)
  {
    var p := d[i];
    d[i := p.(segments := p.segments[j := p.segments[j].(selected := true)], selected := true)]
  }

  /**
   * `item.insert(k, point)` followed by `segment.selected = true` on the new
   * segment, which also sets the path's own flag.
   */
  function InsertSegment(d: Drawing, i: nat, k: nat, point: Point): (r: Drawing)
    requires i < |d| && k <= |d[i].segments|
    ensures |r| == |d| && forall m :: 0 <= m < |d| && m != i ==> r[m] == d[m]
    ensures r[i].id == d[i].id && r[i].selected
    ensures |r[i].segments| == |d[i].segments| + 1
    ensures r[i].segments[k] == Segment(point, true)
    ensures forall m :: 0 <= m < k ==> r[i].segments[m] == d[i].segments[m]
    ensures forall m :: k < m < |r[i].segments| ==> r[i].segments[m] == d[i].segments[m - 1]
  {
    var p := d[i];
    d[i := p.(segments := p.segments[..k] + [Segment(point, true)] + p.segments[k..], selected := true)]
  }

  /**
   * The paths a click did not hit: kept as they were under shift, otherwise
   * deselected with their outline unchanged.
   */
  predicate OthersAfterClick(d: Drawing, r: Drawing, hitPath: nat, shiftDown: bool)
    requires |r| == |d|
  {
    forall m :: 0 <= m < |d| && m != hitPath ==>
      if shiftDown then r[m] == d[m]
      else !IsSelectedItem(r[m]) && SameGeometry(r[m], d[m])
  }

  /** The drawing a click starts from: all selection cleared unless shift is held. */
  function ClickBase(d: Drawing, shiftDown: bool): (r: Drawing)
    ensures |r| == |d| && Ids(r) == Ids(d)
    ensures forall i :: 0 <= i < |d| ==> SameGeometry(r[i], d[i]) && |r[i].segments| == |d[i].segments|
    ensures shiftDown ==> r == d
    ensures !shiftDown ==> NothingSelected(r)
  {
    if shiftDown then d else DeselectAll(d)
  }

  /** A fill hit on path `i`: the path and all its segments become selected. */
  function ClickFill(d: Drawing, i: nat, shiftDown: bool): (r: Drawing)
    requires i < |d|
    ensures |r| == |d| && Ids(r) == Ids(d) && OthersAfterClick(d, r, i, shiftDown)
    ensures SameGeometry(r[i], d[i]) && r[i].selected
    ensures forall j :: 0 <= j < |r[i].segments| ==> r[i].segments[j].selected
  {
    var base := ClickBase(d, shiftDown);
    var r := base[i := FullySelect(base[i])];
    assert Ids(r) == Ids(d);
    r
  }

  /**
   * A segment hit on segment `j` of path `i`: that segment, and with it the
   * path, becomes selected. Without shift it is then the only selected
   * segment in the drawing; with shift everything selected before stays
   * selected.
   */
  function ClickSegment(d: Drawing, i: nat, j: nat, shiftDown: bool): (r: Drawing)
    requires i < |d| && j < |d[i].segments|
    ensures |r| == |d| && Ids(r) == Ids(d) && OthersAfterClick(d, r, i, shiftDown)
    ensures SameGeometry(r[i], d[i]) && |r[i].segments| == |d[i].segments| && r[i].selected
    ensures !shiftDown ==>
      forall k :: 0 <= k < |r[i].segments| ==> (r[i].segments[k].selected <==> k == j)
    ensures shiftDown ==>
      forall k :: 0 <= k < |r[i].segments| ==> (r[i].segments[k].selected <==> k == j || d[i].segments[k].selected)
  {
    var base := ClickBase(d, shiftDown);
    var r := SelectSegment(base, i, j);
    assert Ids(r) == Ids(d);
    r
  }

  /** Where segment `j` of a stroke-hit path ends up once a segment is inserted at `k`. */
  function ShiftedIndex(j: nat, k: nat): nat {
    if j < k then j else j + 1
  }

  /**
   * A stroke hit on curve `location` of path `i`: the last pointer point is
   * inserted as a new, selected segment at `location + 1`; the other
   * segments keep their order, and the path's own flag is set. Without
   * shift the new segment is the only selected segment in the drawing; with
   * shift earlier selection stays.
   */
  function ClickStroke(d: Drawing, i: nat, location: nat, shiftDown: bool, last: Point): (r: Drawing)
    requires i < |d| && location + 1 < |d[i].segments|
    ensures |r| == |d| && Ids(r) == Ids(d) && OthersAfterClick(d, r, i, shiftDown)
    ensures |r[i].segments| == |d[i].segments| + 1
    ensures var k := location + 1; var before := Points(d[i].segments);
      Points(r[i].segments) == before[..k] + [last] + before[k..]
    ensures r[i].segments[location + 1].selected && r[i].selected
    ensures !shiftDown ==>
      forall k :: 0 <= k < |r[i].segments| ==> (r[i].segments[k].selected <==> k == location + 1)
    ensures shiftDown ==>
      forall j :: 0 <= j < |d[i].segments| ==> r[i].segments[ShiftedIndex(j, location + 1)].selected == d[i].segments[j].selected
  {
    var base := ClickBase(d, shiftDown);
    var k := location + 1;
    var r := InsertSegment(base, i, k, last);
    InsertedFlags(d, base, r, i, k, shiftDown, last);
    assert Ids(r) == Ids(d);
    assert Points(r[i].segments) == Points(base[i].segments)[..k] + [last] + Points(base[i].segments)[k..];
    r
  }

  /** The selection flags after a stroke click, given the inserted segment and the click's base drawing. */
  lemma InsertedFlags(d: Drawing, base: Drawing, r: Drawing, i: nat, k: nat, shiftDown: bool, last: Point)
    requires i < |d| && 0 < k < |d[i].segments|
    requires base == ClickBase(d, shiftDown) && r == InsertSegment(base, i, k, last)
    ensures OthersAfterClick(d, r, i, shiftDown)
    ensures !shiftDown ==>
      forall m :: 0 <= m < |r[i].segments| ==> (r[i].segments[m].selected <==> m == k)
    ensures shiftDown ==>
      forall j :: 0 <= j < |d[i].segments| ==> r[i].segments[ShiftedIndex(j, k)].selected == d[i].segments[j].selected
  {
    if !shiftDown {
      InsertedFlagsPlain(base, r, i, k, last);
    } else {
      forall j | 0 <= j < |d[i].segments| ensures r[i].segments[ShiftedIndex(j, k)].selected == d[i].segments[j].selected {
        assert r[i].segments[ShiftedIndex(j, k)] == d[i].segments[j];
      }
    }
    forall m | 0 <= m < |d| && m != i ensures r[m] == base[m] {}
  }

  /** Without shift the base has nothing selected, so the inserted segment is the only selected one. */
  lemma InsertedFlagsPlain(base: Drawing, r: Drawing, i: nat, k: nat, last: Point)
    requires i < |base| && 0 < k < |base[i].segments| && NothingSelected(base)
    requires r == InsertSegment(base, i, k, last)
    ensures forall m :: 0 <= m < |r[i].segments| ==> (r[i].segments[m].selected <==> m == k)
  {
    assert !IsSelectedItem(base[i]);
    forall m | 0 <= m < |r[i].segments| && m != k ensures !r[i].segments[m].selected {
      var j := if m < k then m else m - 1;
      assert r[i].segments[m] == base[i].segments[j];
    }
  }

  datatype Clicked = Clicked(drawing: Drawing, selectionType: SelectionType)

  /**
   * `handleDrawingClicked`: dispatch on the hit kind. The recorded selection
   * type is the hit's kind, except that a stroke hit is recorded as a
   * segment selection.
   */
  function ClickDrawing(d: Drawing, hit: Hit, shiftDown: bool, last: Point): (c: Clicked)
    requires hit != NoHit && HitFits(d, hit)
    ensures |c.drawing| == |d| && Ids(c.drawing) == Ids(d)
    ensures OthersAfterClick(d, c.drawing, hit.path, shiftDown)
    ensures c.selectionType == (if hit.FillHit? then FillSelection else SegmentSelection)
  {
    match hit
    case FillHit(i) => Clicked(ClickFill(d, i, shiftDown), FillSelection)
    case SegmentHit(i, j) => Clicked(ClickSegment(d, i, j, shiftDown), SegmentSelection)
    case StrokeHit(i, k) => Clicked(ClickStroke(d, i, k, shiftDown, last), SegmentSelection)
  }

  // ------------------------------------------------------------------ moving

  /** `segment.point = segment.point.add(delta)` for every selected segment. */
  function MoveSegments(segments: seq<Segment>, delta: Point): (r: seq<Segment>)
    ensures |r| == |segments|
    ensures forall j :: 0 <= j < |segments| ==> r[j].selected == segments[j].selected
  {
    seq(|segments|, j requires 0 <= j < |segments| =>
      if segments[j].selected then segments[j].(point := Add(segments[j].point, delta)) else segments[j])
  }

  /** Setting `item.position` to `position + delta` translates the whole path by `delta`. */
  function TranslatePath(p: Path, delta: Point): (q: Path)
    ensures SameSelection(q, p)
  {
    p.(segments := seq(|p.segments|, j requires 0 <= j < |p.segments| =>
      p.segments[j].(point := Add(p.segments[j].point, delta))))
  }

  /**
   * `handleFillSelectionMoved`: every selected item is translated by `delta`;
   * items that are not selected are untouched.
   */
  function MoveSelectedItems(d: Drawing, delta: Point): (r: Drawing)
    ensures |r| == |d| && Ids(r) == Ids(d)
    ensures forall i :: 0 <= i < |d| ==> SameSelection(r[i], d[i]) && IsSelectedItem(r[i]) == IsSelectedItem(d[i])
    ensures forall i :: 0 <= i < |d| ==> |r[i].segments| == |d[i].segments|
    ensures forall i, j :: 0 <= i < |d| && IsSelectedItem(d[i]) && 0 <= j < |d[i].segments| ==>
      r[i].segments[j].point == Add(d[i].segments[j].point, delta)
    ensures forall i :: 0 <= i < |d| && !IsSelectedItem(d[i]) ==> r[i] == d[i]
  {
    seq(|d|, i requires 0 <= i < |d| => if IsSelectedItem(d[i]) then TranslatePath(d[i], delta) else d[i])
  }

  /**
   * `handleSegmentSelectionMoved`: exactly the selected segments are
   * translated by `delta`; every other segment keeps its point.
   */
  function MoveSelectedSegments(d: Drawing, delta: Point): (r: Drawing)
    ensures |r| == |d| && Ids(r) == Ids(d)
    ensures forall i :: 0 <= i < |d| ==> SameSelection(r[i], d[i]) && IsSelectedItem(r[i]) == IsSelectedItem(d[i])
    ensures forall i :: 0 <= i < |d| ==> |r[i].segments| == |d[i].segments|
    ensures forall i, j :: 0 <= i < |d| && 0 <= j < |d[i].segments| ==>
      r[i].segments[j].point == (if d[i].segments[j].selected then Add(d[i].segments[j].point, delta) else d[i].segments[j].point)
    ensures forall i :: 0 <= i < |d| && !IsSelectedItem(d[i]) ==> r[i] == d[i]
  {
    seq(|d|, i requires 0 <= i < |d| =>
      if IsSelectedItem(d[i]) then d[i].(segments := MoveSegments(d[i].segments, delta)) else d[i])
  }

  /** A drag by the zero delta changes nothing. */
  lemma MoveSelectedSegmentsZero(d: Drawing)
    ensures MoveSelectedSegments(d, Zero) == d
  {
    var r := MoveSelectedSegments(d, Zero);
    forall i | 0 <= i < |d| ensures r[i] == d[i] {
      assert r[i].segments == d[i].segments;
    }
  }

  /** A drag by the zero delta changes nothing. */
  lemma MoveSelectedItemsZero(d: Drawing)
    ensures MoveSelectedItems(d, Zero) == d
  {
    var r := MoveSelectedItems(d, Zero);
    forall i | 0 <= i < |d| ensures r[i] == d[i] {
      assert r[i].segments == d[i].segments;
    }
  }

  /** Two fill drags in a row are one drag by the summed delta. */
  lemma {:induction false} MoveSelectedItemsCompose(d: Drawing, a: Point, b: Point)
    ensures MoveSelectedItems(MoveSelectedItems(d, a), b) == MoveSelectedItems(d, Add(a, b))
  {
    var once := MoveSelectedItems(d, a);
    var twice := MoveSelectedItems(once, b);
    var direct := MoveSelectedItems(d, Add(a, b));
    forall i | 0 <= i < |d| ensures twice[i] == direct[i] {
      if IsSelectedItem(d[i]) {
        assert twice[i].segments == direct[i].segments;
      }
    }
  }

  /** Two segment drags in a row are one drag by the summed delta. */
  lemma {:induction false} MoveSelectedSegmentsCompose(d: Drawing, a: Point, b: Point)
    ensures MoveSelectedSegments(MoveSelectedSegments(d, a), b) == MoveSelectedSegments(d, Add(a, b))
  {
    var once := MoveSelectedSegments(d, a);
    var twice := MoveSelectedSegments(once, b);
    var direct := MoveSelectedSegments(d, Add(a, b));
    forall i | 0 <= i < |d| ensures twice[i] == direct[i] {
      if IsSelectedItem(d[i]) {
        assert twice[i].segments == direct[i].segments;
      }
    }
  }

  /** Dragging back by the opposite delta restores the drawing exactly. */
  lemma MoveSelectedSegmentsUndo(d: Drawing, a: Point)
    ensures MoveSelectedSegments(MoveSelectedSegments(d, a), Negate(a)) == d
  {
    MoveSelectedSegmentsCompose(d, a, Negate(a));
    MoveSelectedSegmentsZero(d);
  }

  /** Dragging back by the opposite delta restores the drawing exactly. */
  lemma MoveSelectedItemsUndo(d: Drawing, a: Point)
    ensures MoveSelectedItems(MoveSelectedItems(d, a), Negate(a)) == d
  {
    MoveSelectedItemsCompose(d, a, Negate(a));
    MoveSelectedItemsZero(d);
  }

  // ---------------------------------------------------------------- deleting

  /**
   * `handleFillSelectionDeleted`: every selected item is removed and every
   * other path is kept, in its order.
   */
  function DeleteSelectedItems(d: Drawing): (r: Drawing)
    ensures IsSubseq(r, d) && IsSubseq(Ids(r), Ids(d))
    ensures NothingSelected(r)
    ensures forall i :: 0 <= i < |d| && !IsSelectedItem(d[i]) ==> d[i] in r
  {
    if |d| == 0 then []
    else
      var rest := DeleteSelectedItems(d[1..]);
      assert forall i :: 1 <= i < |d| ==> d[i] == d[1..][i - 1];
      assert Ids(d) == [d[0].id] + Ids(d[1..]);
      if IsSelectedItem(d[0]) then rest
      else
        assert Ids([d[0]] + rest) == [d[0].id] + Ids(rest);
        [d[0]] + rest
  }

  /**
   * The inner loop of `handleSegmentSelectionDeleted`: `forEach` over the
   * live segment array, removing each selected segment it visits. A removal
   * shifts the next segment into the visited slot, so that segment is
   * skipped, whatever its flag.
   */
  function RemoveSelectedSegments(segments: seq<Segment>): (r: seq<Segment>)
    ensures IsSubseq(r, segments)
    ensures Unselected(r) == Unselected(segments)
    decreases |segments|
  {
    if |segments| == 0 then []
    else if !segments[0].selected then
      var rest := RemoveSelectedSegments(segments[1..]);
      assert ([segments[0]] + rest)[1..] == rest;
      [segments[0]] + rest
    else if |segments| == 1 then
      assert Unselected(segments) == Unselected(segments[1..]);
      []
    else
      var rest := RemoveSelectedSegments(segments[2..]);
      assert ([segments[1]] + rest)[1..] == rest;
      assert segments[1..][1..] == segments[2..];
      assert IsSubseq([segments[1]] + rest, segments[1..]);
      assert Unselected(segments) == Unselected(segments[1..]);
      [segments[1]] + rest
  }

  /** The same loop, written as the index walk `Array.prototype.forEach` performs. */
  method ForEachRemoveSelected(segments: seq<Segment>) returns (live: seq<Segment>)
    ensures live == RemoveSelectedSegments(segments)
  {
    live := segments;
    var length := |segments|;  // forEach fixes the bound before the first call
    var k := 0;
    while k < length
      invariant 0 <= k <= length && |live| <= length
      invariant k <= |live| ==> RemoveSelectedSegments(segments) == live[..k] + RemoveSelectedSegments(live[k..])
      invariant k > |live| ==> RemoveSelectedSegments(segments) == live
    {
      if k < |live| && live[k].selected {
        VisitSelected(live, k);
        live := live[..k] + live[k + 1..];
      } else if k < |live| {
        VisitUnselected(live, k);
      } else if k == |live| {
        assert live[k..] == [];
      }
      k := k + 1;
    }
    if k <= |live| {
      assert live[k..] == [];
    }
  }

  /** Visiting an unselected segment keeps it and moves on to the next slot. */
  lemma VisitUnselected(live: seq<Segment>, k: nat)
    requires k < |live| && !live[k].selected
    ensures live[..k] + RemoveSelectedSegments(live[k..]) == live[..k + 1] + RemoveSelectedSegments(live[k + 1..])
  {
    var t := live[k..];
    KeepHead(t);
    assert t[0] == live[k] && t[1..] == live[k + 1..];
    var rest := RemoveSelectedSegments(live[k + 1..]);
    assert live[..k] + ([live[k]] + rest) == (live[..k] + [live[k]]) + rest;
    assert live[..k + 1] == live[..k] + [live[k]];
  }

  /** The unfolding for an unselected head: it is kept and the walk goes on with the next one. */
  lemma KeepHead(t: seq<Segment>)
    requires |t| > 0 && !t[0].selected
    ensures RemoveSelectedSegments(t) == [t[0]] + RemoveSelectedSegments(t[1..])
  {}

  /** Visiting a selected segment removes it; the segment shifted into its slot is passed over. */
  lemma VisitSelected(live: seq<Segment>, k: nat)
    requires k < |live| && live[k].selected
    ensures var next := live[..k] + live[k + 1..];
      && (k + 1 <= |next| ==> live[..k] + RemoveSelectedSegments(live[k..]) == next[..k + 1] + RemoveSelectedSegments(next[k + 1..]))
      && (k + 1 > |next| ==> live[..k] + RemoveSelectedSegments(live[k..]) == next)
  {
    if k + 1 < |live| {
      VisitSelectedInner(live, k);
    } else {
      VisitSelectedLast(live, k);
    }
  }

  lemma VisitSelectedInner(live: seq<Segment>, k: nat)
    requires k + 1 < |live| && live[k].selected
    ensures var next := live[..k] + live[k + 1..];
      live[..k] + RemoveSelectedSegments(live[k..]) == next[..k + 1] + RemoveSelectedSegments(next[k + 1..])
  {
    var next := live[..k] + live[k + 1..];
    var t := live[k..];
    SkipAfterRemoval(t);
    assert t[1] == live[k + 1] && t[2..] == live[k + 2..];
    var rest := RemoveSelectedSegments(live[k + 2..]);
    assert live[..k] + ([live[k + 1]] + rest) == (live[..k] + [live[k + 1]]) + rest;
    assert next[..k + 1] == live[..k] + [live[k + 1]];
    assert next[k + 1..] == live[k + 2..];
  }

  lemma VisitSelectedLast(live: seq<Segment>, k: nat)
    requires k + 1 == |live| && live[k].selected
    ensures live[..k] + RemoveSelectedSegments(live[k..]) == live[..k] + live[k + 1..]
  {
    assert live[k..] == [live[k]];
    assert live[k + 1..] == [];
  }

  /** The unfolding the loop relies on: after removing a selected head, the next segment is kept unvisited. */
  lemma SkipAfterRemoval(t: seq<Segment>)
    requires |t| >= 2 && t[0].selected
    ensures RemoveSelectedSegments(t) == [t[1]] + RemoveSelectedSegments(t[2..])
  {}

  predicate HasAdjacentSelected(segments: seq<Segment>) {
    exists j :: 0 <= j < |segments| - 1 && segments[j].selected && segments[j + 1].selected
  }

  /**
   * The loop removes every selected segment exactly when no two selected
   * segments are adjacent; otherwise a selected segment survives.
   */
  lemma {:induction false} RemoveSelectedSegmentsCompleteIff(segments: seq<Segment>)
    ensures RemoveSelectedSegments(segments) == Unselected(segments) <==> !HasAdjacentSelected(segments)
    decreases |segments|
  {
    var s := segments;
    if |s| == 0 {
    } else if !s[0].selected {
      RemoveSelectedSegmentsCompleteIff(s[1..]);
      AdjacentSelectedTail(s, 1);
    } else if |s| == 1 {
      assert Unselected(s) == Unselected(s[1..]);
    } else if s[1].selected {
      var r := RemoveSelectedSegments(s);
      assert r[0].selected;
      assert HasAdjacentSelected(s) by { assert s[0].selected && s[1].selected; }
      if |Unselected(s)| > 0 {
        assert !Unselected(s)[0].selected;
      }
    } else {
      RemoveSelectedSegmentsCompleteIff(s[2..]);
      AdjacentSelectedTail(s, 2);
      assert s[1..][1..] == s[2..];
      assert Unselected(s) == Unselected(s[1..]);
      assert Unselected(s[1..]) == [s[1]] + Unselected(s[2..]);
    }
  }

  /** Dropping one or two leading segments, the last of them unselected, keeps exactly the adjacent selected pairs. */
  lemma AdjacentSelectedTail(s: seq<Segment>, n: nat)
    requires (n == 1 || n == 2) && n <= |s| && !s[n - 1].selected
    ensures HasAdjacentSelected(s) <==> HasAdjacentSelected(s[n..])
  {
    if HasAdjacentSelected(s) {
      var j :| 0 <= j < |s| - 1 && s[j].selected && s[j + 1].selected;
      assert j >= n;
      assert s[n..][j - n] == s[j] && s[n..][j - n + 1] == s[j + 1];
    }
    if HasAdjacentSelected(s[n..]) {
      var j :| 0 <= j < |s[n..]| - 1 && s[n..][j].selected && s[n..][j + 1].selected;
      assert s[j + n] == s[n..][j] && s[j + n + 1] == s[n..][j + 1];
    }
  }

  /** An example of `SelectedRunKeepsEverySecond`: of exactly two selected segments the loop removes the first and skips the second. */
  lemma AdjacentSelectedSegmentSurvives(a: Point, b: Point)
    ensures RemoveSelectedSegments([Segment(a, true), Segment(b, true)]) == [Segment(b, true)]
  {}

  /** The segments at odd offsets of `s`: the second, the fourth, and so on. */
  function EverySecond(s: seq<Segment>): (r: seq<Segment>)
    ensures |r| == |s| / 2
    ensures forall i :: 0 <= i < |r| ==> r[i] == s[2 * i + 1]
    decreases |s|
  {
    if |s| < 2 then [] else [s[1]] + EverySecond(s[2..])
  }

  /**
   * What the loop leaves of `rest` after a run of `n` adjacent selected
   * segments: after an odd run the first segment of `rest` is not visited.
   */
  function AfterRun(n: nat, rest: seq<Segment>): seq<Segment> {
    if n % 2 == 0 || |rest| == 0 then RemoveSelectedSegments(rest)
    else [rest[0]] + RemoveSelectedSegments(rest[1..])
  }

  /**
   * A run of adjacent selected segments loses its first, third, fifth, ...
   * segment and keeps every second one. A run of odd length also leaves the
   * segment right after it unvisited, whatever its flag.
   */
  lemma {:induction false} SelectedRunKeepsEverySecond(run: seq<Segment>, rest: seq<Segment>)
    requires forall i :: 0 <= i < |run| ==> run[i].selected
    ensures RemoveSelectedSegments(run + rest) == EverySecond(run) + AfterRun(|run|, rest)
    decreases |run|
  {
    if |run| == 0 {
      assert run + rest == rest;
    } else if |run| == 1 {
      RunOfOne(run, rest);
    } else {
      SelectedRunKeepsEverySecond(run[2..], rest);
      RunStep(run, rest);
    }
  }

  lemma RunOfOne(run: seq<Segment>, rest: seq<Segment>)
    requires |run| == 1 && run[0].selected
    ensures RemoveSelectedSegments(run + rest) == AfterRun(1, rest)
  {
    if |rest| > 0 {
      SkipAfterRemoval(run + rest);
      assert (run + rest)[1] == rest[0] && (run + rest)[2..] == rest[1..];
    } else {
      assert run + rest == run;
    }
  }

  /** Removing the first two segments of a run keeps its second and leaves the rest of the run to the walk. */
  lemma RunStep(run: seq<Segment>, rest: seq<Segment>)
    requires |run| >= 2 && run[0].selected
    requires RemoveSelectedSegments(run[2..] + rest) == EverySecond(run[2..]) + AfterRun(|run| - 2, rest)
    ensures RemoveSelectedSegments(run + rest) == EverySecond(run) + AfterRun(|run|, rest)
  {
    RunHead(run, rest);
    AfterRunStep(|run|, rest);
    ConsChain(run[1], EverySecond(run[2..]), AfterRun(|run|, rest),
      RemoveSelectedSegments(run + rest), EverySecond(run));
  }

  /** The walk removes the run's first segment and keeps its second unvisited. */
  lemma RunHead(run: seq<Segment>, rest: seq<Segment>)
    requires |run| >= 2 && run[0].selected
    ensures RemoveSelectedSegments(run + rest) == [run[1]] + RemoveSelectedSegments(run[2..] + rest)
  {
    var t := run + rest;
    SkipAfterRemoval(t);
    assert t[1] == run[1];
    assert t[2..] == run[2..] + rest;
  }

  lemma AfterRunStep(n: nat, rest: seq<Segment>)
    requires n >= 2
    ensures AfterRun(n - 2, rest) == AfterRun(n, rest)
  {
    ParityStep(n);
  }

  lemma ParityStep(n: nat)
    requires n >= 2
    ensures (n - 2) % 2 == n % 2
  {}

  /** `whole` is `x` followed by `evens` and `after`, and `lead` is `x` followed by `evens`. */
  lemma ConsChain(x: Segment, evens: seq<Segment>, after: seq<Segment>, whole: seq<Segment>, lead: seq<Segment>)
    requires whole == [x] + (evens + after) && lead == [x] + evens
    ensures whole == lead + after
  {}

  /** A path whose segments are all selected keeps exactly every second one. */
  lemma AllSelectedKeepsEverySecond(segments: seq<Segment>)
    requires forall i :: 0 <= i < |segments| ==> segments[i].selected
    ensures RemoveSelectedSegments(segments) == EverySecond(segments)
  {
    SelectedRunKeepsEverySecond(segments, []);
    assert segments + [] == segments;
    assert EverySecond(segments) + [] == EverySecond(segments);
  }

  /** One selected item after its selected segments have been removed. */
  function SweepPath(p: Path): Path {
    p.(segments := RemoveSelectedSegments(p.segments))
  }

  /**
   * `handleSegmentSelectionDeleted`: every selected item loses the selected
   * segments the loop visits, and is removed when fewer than
   * `MinimumPointsPerPath` segments remain; paths that are not selected are
   * kept unchanged. No path is added and the order is kept.
   */
  function DeleteSelectedSegments(d: Drawing): (r: Drawing)
    ensures |r| <= |d| && IsSubseq(Ids(r), Ids(d))
  {
    if |d| == 0 then []
    else
      var rest := DeleteSelectedSegments(d[1..]);
      assert Ids(d) == [d[0].id] + Ids(d[1..]);
      if !IsSelectedItem(d[0]) then
        assert Ids([d[0]] + rest) == [d[0].id] + Ids(rest);
        [d[0]] + rest
      else
        var q := SweepPath(d[0]);
        if |q.segments| < MinimumPointsPerPath then rest
        else
          assert Ids([q] + rest) == [d[0].id] + Ids(rest);
          [q] + rest
  }

  /** A path left after a segment deletion on `d`: an unselected path, or a swept selected one that is long enough. */
  predicate LeftAfterSegmentDeletion(q: Path, d: Drawing) {
    || (q in d && !IsSelectedItem(q))
    || (|q.segments| >= MinimumPointsPerPath && exists p :: p in d && IsSelectedItem(p) && q == SweepPath(p))
  }

  /**
   * The paths a segment deletion leaves are exactly the unselected paths
   * and the swept selected paths with at least `MinimumPointsPerPath`
   * segments.
   */
  lemma {:induction false} DeleteSelectedSegmentsKeeps(d: Drawing)
    ensures forall q :: q in DeleteSelectedSegments(d) ==> LeftAfterSegmentDeletion(q, d)
    ensures forall p :: p in d && !IsSelectedItem(p) ==> p in DeleteSelectedSegments(d)
    ensures forall p :: p in d && IsSelectedItem(p) && |SweepPath(p).segments| >= MinimumPointsPerPath ==>
      SweepPath(p) in DeleteSelectedSegments(d)
  {
    if |d| > 0 {
      DeleteSelectedSegmentsKeeps(d[1..]);
      assert forall p :: p in d <==> p == d[0] || p in d[1..];
      forall q | LeftAfterSegmentDeletion(q, d[1..]) ensures LeftAfterSegmentDeletion(q, d) {
        if !(q in d[1..] && !IsSelectedItem(q)) {
          var p :| p in d[1..] && IsSelectedItem(p) && q == SweepPath(p);
          assert p in d;
        }
      }
    }
  }
}

=== FILE: seqs.dfy ===
/** Order-preserving deletion and distinctness on sequences. */
module Seqs {

  /** `a` is `b` with zero or more elements deleted and the rest kept in order. */
  predicate IsSubseq<T(==)>(a: seq<T>, b: seq<T>)
    decreases |b|
  {
    if |a| == 0 then true
    else if |b| == 0 then false
    else (a[0] == b[0] && IsSubseq(a[1..], b[1..])) || IsSubseq(a, b[1..])
  }

  /** No element occurs twice. */
  predicate Distinct<T(==)>(s: seq<T>) {
    forall i, j :: 0 <= i < j < |s| ==> s[i] != s[j]
  }

  lemma {:induction false} SubseqRefl<T>(s: seq<T>)
    ensures IsSubseq(s, s)
    decreases |s|
  {
    if |s| > 0 {
      SubseqRefl(s[1..]);
    }
  }

  /** Deleting elements never introduces new ones. */
  lemma {:induction false} SubseqMembers<T>(a: seq<T>, b: seq<T>)
    requires IsSubseq(a, b)
    ensures forall x :: x in a ==> x in b
    decreases |b|
  {
    if |a| > 0 {
      if a[0] == b[0] && IsSubseq(a[1..], b[1..]) {
        SubseqMembers(a[1..], b[1..]);
        forall x | x in a ensures x in b {
          if x != a[0] {
            assert x in a[1..];
          }
        }
      } else {
        SubseqMembers(a, b[1..]);
      }
    }
  }

  /** Deleting elements from a sequence without repetitions leaves one without repetitions. */
  lemma {:induction false} SubseqDistinct<T>(a: seq<T>, b: seq<T>)
    requires IsSubseq(a, b) && Distinct(b)
    ensures Distinct(a)
    decreases |b|
  {
    if |a| > 0 {
      assert Distinct(b[1..]) by {
        forall i, j | 0 <= i < j < |b[1..]| ensures b[1..][i] != b[1..][j] {
          assert b[1..][i] == b[i + 1] && b[1..][j] == b[j + 1];
        }
      }
      if a[0] == b[0] && IsSubseq(a[1..], b[1..]) {
        SubseqDistinct(a[1..], b[1..]);
        SubseqMembers(a[1..], b[1..]);
        forall i, j | 0 <= i < j < |a| ensures a[i] != a[j] {
          assert a[j] == a[1..][j - 1];
          if i == 0 {
            assert a[j] in b[1..];
            assert b[0] !in b[1..] by {
              forall k | 0 <= k < |b[1..]| ensures b[1..][k] != b[0] {
                assert b[1..][k] == b[k + 1];
              }
            }
          } else {
            assert a[i] == a[1..][i - 1];
          }
        }
      } else {
        SubseqDistinct(a, b[1..]);
      }
    }
  }

  /** Removing the element at one index is an order-preserving deletion. */
  lemma {:induction false} RemoveAtSubseq<T>(s: seq<T>, i: nat)
    requires i < |s|
    ensures IsSubseq(s[..i] + s[i + 1..], s)
    decreases i
  {
    if i == 0 {
      assert s[..0] + s[1..] == s[1..];
      SubseqRefl(s[1..]);
    } else {
      var r := s[..i] + s[i + 1..];
      RemoveAtSubseq(s[1..], i - 1);
      assert r[0] == s[0];
      assert r[1..] == s[1..][..i - 1] + s[1..][i..];
    }
  }

  /** Two order-preserving deletions in a row are one. */
  lemma {:induction false} SubseqTrans<T>(a: seq<T>, b: seq<T>, c: seq<T>)
    requires IsSubseq(a, b) && IsSubseq(b, c)
    ensures IsSubseq(a, c)
    decreases |c|
  {
    if |a| > 0 {
      if b[0] == c[0] && IsSubseq(b[1..], c[1..]) {
        if a[0] == b[0] && IsSubseq(a[1..], b[1..]) {
          SubseqTrans(a[1..], b[1..], c[1..]);
        } else {
          SubseqTrans(a, b[1..], c[1..]);
        }
      } else {
        SubseqTrans(a, b, c[1..]);
      }
    }
  }

  /** Deleting elements never makes a sequence longer. */
  lemma {:induction false} SubseqLength<T>(a: seq<T>, b: seq<T>)
    requires IsSubseq(a, b)
    ensures |a| <= |b|
    decreases |b|
  {
    if |a| > 0 {
      if a[0] == b[0] && IsSubseq(a[1..], b[1..]) {
        SubseqLength(a[1..], b[1..]);
      } else {
        SubseqLength(a, b[1..]);
      }
    }
  }
}

=== FILE: wrappers.dfy ===
/** Optional values, used for the current path (which may be null) and for lookups. */
module Wrappers {

  datatype Option<+T> = None | Some(value: T)
}
